=== FILE: README.md ===
# Takaro game-server core in Dafny

A model of the parts of Takaro that turn requests into game-server actions and decide who may perform them:

- the **7 Days to Die adapter**, which builds console commands, parses the `ban list` table and classifies reachability failures;
- the **mock game server**, a state machine over a Redis-like store of player hashes and ban strings;
- the **JSON-Schema generator** of the module-configuration form;
- the **authorisation decisions** of the API: the capability check, the admin gate, the claims of a signed token, and the missing-token and missing-root-user paths;
- the **step header** of the multi-step form;
- the built-in **`help`** command.

Every operation is a pure function. Effects are explicit:

- A mock-server operation takes a `Store` and returns a `Step` carrying:
  - the new store;
  - the socket events it emits, in order;
  - its result.
- Answers from outside are parameters:
  - the 7 Days to Die web API's reply or thrown error;
  - the signing and verifying library's verdict;
  - the user store's lookup;
  - the clock readings;
  - faker's random values.

JavaScript semantics the source depends on are written out in `strings.dfy`:

- `split` and `join` on one character;
- `String.prototype.replace` with a string pattern, which replaces the first occurrence only;
- `startsWith`;
- `parseInt(s, 10)`: leading whitespace, a sign and the longest digit prefix, with `NaN` as `None`;
- integer `toString`;
- `Math.floor(ms / 1000)`, the whole seconds of a millisecond instant;
- template interpolation, where `undefined` becomes `"undefined"`.

Numbers are unbounded integers.

Files:

- `wrappers.dfy`: `Option` and `Result`.
- `strings.dfy` (module `Text`): the JavaScript string operations above.
- `game_types.dfy`: the DTOs shared by the adapters.
- `sdtd.dfy` (module `SevenDaysToDie`): the 7 Days to Die adapter.
- `mock_server.dfy` (module `MockGameServer`): the mock game server.
- `schema_gen.dfy` (module `JsonSchemaGenerator`): the JSON-Schema generator.
- `auth.dfy` (module `Auth`): the authorisation decisions.
- `stepper.dfy` (module `Stepper`): the step header.
- `help.dfy` (module `Help`): the `help` command.

The ban-list pattern `(\d{4}-\d{2}-\d{2} \d{2}:\d{2}:\d{2}) - (\S+) \(([^)]*)\) - (.*)` is unanchored. It is modelled as a leftmost search.

- `SevenDaysToDie.MatchesAt` is the reference definition: the groups occur at a given offset.
- `MatchAt` is the deterministic matcher at one offset. It is proved sound and complete against `MatchesAt`:
  - `\S+` is the maximal non-whitespace run followed by a space;
  - `[^)]*` ends at the first `)`;
  - `.*` ends at the first line terminator.
- `MatchLine` returns the match at the leftmost offset that has one.

## Model

| member | source | states |
|---|---|---|
| SevenDaysToDie.SendMessage | packages/lib-gameserver/src/gameservers/7d2d/index.ts:103-106 | the command is `say "`, then the message character for character, then a closing `"` |
| SevenDaysToDie.TeleportPlayer | packages/lib-gameserver/src/gameservers/7d2d/index.ts:108-111 | the command starts with `teleportplayer`, a space, the game id and a space, and continues with the decimal texts of x, y and z separated by single spaces |
| SevenDaysToDie.KickPlayer | packages/lib-gameserver/src/gameservers/7d2d/index.ts:113-116 | the command is `kick "`, the game id, `" "`, the reason and a closing `"`, each at its computed position |
| SevenDaysToDie.BanPlayer | packages/lib-gameserver/src/gameservers/7d2d/index.ts:118-121 | the command is `ban add ` followed by the game id, the interpolated expiry (`undefined` when absent) and the reason, separated by spaces |
| SevenDaysToDie.UnbanPlayer | packages/lib-gameserver/src/gameservers/7d2d/index.ts:123-126 | the command is `ban remove ` followed by exactly the game id |
| SevenDaysToDie.SendMessageReadBack | packages/lib-gameserver/src/gameservers/7d2d/index.ts:103-106 | for a message without quotes, splitting the sent command on `"` gives back `say ` and exactly the message |
| SevenDaysToDie.TeleportPlayerWords | packages/lib-gameserver/src/gameservers/7d2d/index.ts:108-111 | for a game id without spaces, the command splits on spaces into exactly `teleportplayer`, the game id and the decimal texts of x, y and z |
| SevenDaysToDie.TeleportPlayerReadBack | packages/lib-gameserver/src/gameservers/7d2d/index.ts:108-111 | the sent command splits into `teleportplayer`, the game id and three words that `parseInt` reads back as exactly x, y and z |
| SevenDaysToDie.KickPlayerReadBack | packages/lib-gameserver/src/gameservers/7d2d/index.ts:113-116 | for quote-free id and reason, the command is `kick "<id>" "<reason>"`: splitting on `"` recovers both |
| SevenDaysToDie.BanPlayerReadBack | packages/lib-gameserver/src/gameservers/7d2d/index.ts:118-121 | the command's words are `ban`, `add`, the game id, the interpolated expiry, and then words that join back to the whole reason |
| SevenDaysToDie.UnbanPlayerReadBack | packages/lib-gameserver/src/gameservers/7d2d/index.ts:123-126 | the command's words are exactly `ban`, `remove` and the game id |
| SevenDaysToDie.ExecuteConsoleCommand | packages/lib-gameserver/src/gameservers/7d2d/index.ts:94-101 | a reply gives a successful output carrying the API's result text; a thrown error propagates |
| SevenDaysToDie.MatchAt | packages/lib-gameserver/src/gameservers/7d2d/index.ts:142-144 | whatever the matcher returns at an offset satisfies the reference definition of the pattern there |
| SevenDaysToDie.MatchFromGameId | packages/lib-gameserver/src/gameservers/7d2d/index.ts:143 | once a date and ` - ` are in place, whatever the game-id stage reports satisfies the reference definition |
| SevenDaysToDie.MatchFromDisplayName | packages/lib-gameserver/src/gameservers/7d2d/index.ts:143 | once a non-empty game id and ` (` are in place, whatever the display-name stage reports satisfies the reference definition |
| SevenDaysToDie.MatchText | packages/lib-gameserver/src/gameservers/7d2d/index.ts:142-144 | the matched stretch of the line is the date, ` - `, the game id, ` (`, the display name, `) - ` and the reason, in that order |
| SevenDaysToDie.MatchOfText | packages/lib-gameserver/src/gameservers/7d2d/index.ts:142-144 | conversely, groups of the right shape written out with their separators form a line that the reference definition matches at its start |
| SevenDaysToDie.MatchAtComplete | packages/lib-gameserver/src/gameservers/7d2d/index.ts:142-144 | every match the reference definition allows at an offset is the one the matcher returns, so the match at an offset is unique |
| SevenDaysToDie.GroupSpans | packages/lib-gameserver/src/gameservers/7d2d/index.ts:143 | in every match the reference definition allows, the greedy runs of `\S+`, `[^)]*` and `.*` stop exactly where the groups end |
| SevenDaysToDie.SpanWhileUnique | packages/lib-gameserver/src/gameservers/7d2d/index.ts:143 | a greedy run of `\S`, `[^)]` or non-terminators ends at the only place such a run can end |
| SevenDaysToDie.FirstMatchFrom | packages/lib-gameserver/src/gameservers/7d2d/index.ts:142-144 | the offset returned matches, and no earlier offset does |
| SevenDaysToDie.MatchLine | packages/lib-gameserver/src/gameservers/7d2d/index.ts:142-147 | a line matches if and only if some offset matches; the match returned is at an offset before which none matches |
| SevenDaysToDie.NoMatchInShortLine | packages/lib-gameserver/src/gameservers/7d2d/index.ts:142-147 | a line shorter than a date and the separator ` - ` never matches |
| SevenDaysToDie.ExpiresAt | packages/lib-gameserver/src/gameservers/7d2d/index.ts:149 | the expiry text always ends in `.000Z` |
| SevenDaysToDie.ExpiresAtIsIso | packages/lib-gameserver/src/gameservers/7d2d/index.ts:149 | for a well-formed date the expiry is the date with its space replaced by `T`, followed by `.000Z` |
| SevenDaysToDie.ToBan | packages/lib-gameserver/src/gameservers/7d2d/index.ts:147-158 | the ban keeps the matched game id and reason and drops the display name; for a well-formed date its expiry is the ISO form `YYYY-MM-DDTHH:MM:SS.000Z` |
| SevenDaysToDie.ParseBanLines | packages/lib-gameserver/src/gameservers/7d2d/index.ts:141-160 | never more bans than table lines |
| SevenDaysToDie.LineBans | packages/lib-gameserver/src/gameservers/7d2d/index.ts:142-159 | one table line contributes at most one ban |
| SevenDaysToDie.ParseBanLinesAppend | packages/lib-gameserver/src/gameservers/7d2d/index.ts:141-160 | the ban list of concatenated lines is the concatenation of the ban lists |
| SevenDaysToDie.ParseBanLine | packages/lib-gameserver/src/gameservers/7d2d/index.ts:147-158 | a matching line contributes exactly its ban, and a non-matching line contributes nothing |
| SevenDaysToDie.SkipsUnmatchedLine | packages/lib-gameserver/src/gameservers/7d2d/index.ts:147 | removing a non-matching line anywhere leaves the result unchanged |
| SevenDaysToDie.MatchingLinesSnoc | packages/lib-gameserver/src/gameservers/7d2d/index.ts:141-147 | the matching line positions of a table are those of all but its last line, plus the last position exactly when the pattern matches that line |
| SevenDaysToDie.ParseBanLinesCount | packages/lib-gameserver/src/gameservers/7d2d/index.ts:141-160 | the number of bans equals the number of line positions at which the pattern matches |
| SevenDaysToDie.ListBans | packages/lib-gameserver/src/gameservers/7d2d/index.ts:133-135 | an unsuccessful or empty output is an error, and any other output gives a list of bans |
| SevenDaysToDie.ListBansCall | packages/lib-gameserver/src/gameservers/7d2d/index.ts:128-135 | a thrown API error propagates; a reply fails exactly when its text is empty |
| SevenDaysToDie.HeaderIsDiscarded | packages/lib-gameserver/src/gameservers/7d2d/index.ts:138 | the first line is never parsed: the bans are those of the lines after it |
| SevenDaysToDie.SingleLineGivesNoBans | packages/lib-gameserver/src/gameservers/7d2d/index.ts:138 | output with only a header line yields an empty list, even if the header looks like a ban |
| SevenDaysToDie.ListBansExample | packages/lib-gameserver/src/gameservers/7d2d/index.ts:128-163 | a header, one ban line and a garbage line yield exactly one ban, with its game id, reason and ISO expiry |
| SevenDaysToDie.ExampleBanLineParses | packages/lib-gameserver/src/gameservers/7d2d/index.ts:142-158 | the line `2024-01-02 03:04:05 - 77 (bob) - griefing` yields one ban for game id `77`, reason `griefing`, expiring `2024-01-02T03:04:05.000Z` |
| SevenDaysToDie.FailureReason | packages/lib-gameserver/src/gameservers/7d2d/index.ts:62-81 | each of the four reason texts is chosen exactly in its case: non-axios error, no response, status 401 or 403, any other status |
| SevenDaysToDie.TestReachability | packages/lib-gameserver/src/gameservers/7d2d/index.ts:58-92 | connectable exactly when both probes succeed; otherwise the reason is the one for the first failing probe |
| SevenDaysToDie.SteamKey | packages/lib-gameserver/src/gameservers/7d2d/index.ts:44 | the search key is `Steam_` followed by the interpolated Steam id, `Steam_undefined` when there is none |
| SevenDaysToDie.GetPlayerLocation | packages/lib-gameserver/src/gameservers/7d2d/index.ts:43-55 | no position exactly when no entry has steam id `Steam_<steamId>`; otherwise the position of the first such entry |
| SevenDaysToDie.GetPlayerLocationCall | packages/lib-gameserver/src/gameservers/7d2d/index.ts:41-56 | an error thrown while fetching the location list propagates; otherwise the call succeeds, with no position exactly when no entry carries the player's Steam key |
| MockGameServer.RedisKey | packages/app-mock-gameserver/src/lib/gameserver/index.ts:23-34 | every key starts with `mock-game:<config name>:<server name>:`, and the rest of it is exactly the key asked for |
| MockGameServer.PlayerKey | packages/app-mock-gameserver/src/lib/gameserver/index.ts:66 | a player key is the server's `player:` prefix followed by exactly the game id |
| MockGameServer.BanKey | packages/app-mock-gameserver/src/lib/gameserver/index.ts:233 | a ban key is the server's `ban:` prefix followed by exactly the game id |
| MockGameServer.FirstColon | packages/app-mock-gameserver/src/lib/gameserver/index.ts:32-34 | the first colon of `name:rest`, for a colon-free name, is right after the name |
| MockGameServer.SegmentBeforeColon | packages/app-mock-gameserver/src/lib/gameserver/index.ts:32-34 | a key determines its colon-free leading segment |
| MockGameServer.KeysSeparateServers | packages/app-mock-gameserver/src/lib/gameserver/index.ts:23-34 | two servers with different colon-free names never share a store key |
| MockGameServer.ColonInNameSharesKeys | packages/app-mock-gameserver/src/lib/gameserver/index.ts:23-34 | with a colon in a server name, two servers can share a store key |
| MockGameServer.KeysWithinServer | packages/app-mock-gameserver/src/lib/gameserver/index.ts:32-34 | player keys and ban keys never collide, and each determines its game id |
| MockGameServer.SeedKeyInjective | packages/app-mock-gameserver/src/lib/gameserver/index.ts:43-56 | distinct seed indices give distinct player keys |
| MockGameServer.SeedKeysDistinct | packages/app-mock-gameserver/src/lib/gameserver/index.ts:43-56 | no two seed indices share a player key |
| MockGameServer.SeedMap | packages/app-mock-gameserver/src/lib/gameserver/index.ts:43-58 | the seed records are keyed by `player:0`..`player:4`, each holding its fake identity, and nothing else is written |
| MockGameServer.EnsurePlayersPersisted | packages/app-mock-gameserver/src/lib/gameserver/index.ts:36-59 | with any `player:*` key present the store is unchanged; otherwise exactly the five seed records are added and every other key keeps its value |
| MockGameServer.SeedKeysFresh | packages/app-mock-gameserver/src/lib/gameserver/index.ts:37-41 | on a store without `player:*` keys, no seed key is already taken |
| MockGameServer.SeedingIsIdempotent | packages/app-mock-gameserver/src/lib/gameserver/index.ts:36-59 | seeding twice, whatever faker returns, equals seeding once |
| MockGameServer.SeededPositionsInRange | packages/app-mock-gameserver/src/lib/gameserver/index.ts:49-51 | every seeded coordinate reads back through `parseInt` as an integer from -499 to 500 |
| MockGameServer.LookupRecord | packages/app-mock-gameserver/src/lib/gameserver/index.ts:66-70 | a record is found exactly when the player's key is in the store, and it is that key's record |
| MockGameServer.GetPlayer | packages/app-mock-gameserver/src/lib/gameserver/index.ts:65-79 | no record gives no player; a record without `gameId` is a TypeError; otherwise the player's fields are the record's |
| MockGameServer.GetPlayerTotal | packages/app-mock-gameserver/src/lib/gameserver/index.ts:65-79 | on a store whose player records all carry `gameId`, looking a player up never fails |
| MockGameServer.SeedingKeepsWellFormed | packages/app-mock-gameserver/src/lib/gameserver/index.ts:36-59 | seeding keeps every player record carrying a `gameId` |
| MockGameServer.PlayerPrefixKey | packages/app-mock-gameserver/src/lib/gameserver/index.ts:82 | every key the `player:*` pattern matches is the player key of the rest of it |
| MockGameServer.GetPlayers | packages/app-mock-gameserver/src/lib/gameserver/index.ts:81-101 | a listed key without a hash is a store error; with every hash present, a record without `gameId` is a TypeError; otherwise one player per listed key, in listing order, built from that key's record |
| MockGameServer.GetPlayersCoversStore | packages/app-mock-gameserver/src/lib/gameserver/index.ts:81-101 | on a well-formed store, with the listing `KEYS player:*` answers, `getPlayers` succeeds and holds, for every player record of the server, the player `getPlayer` returns for its game id |
| MockGameServer.GetPlayerLocation | packages/app-mock-gameserver/src/lib/gameserver/index.ts:103-114 | there is no position exactly when the player has no record |
| MockGameServer.SendMessage | packages/app-mock-gameserver/src/lib/gameserver/index.ts:163-175 | a global chat event with the message, then a log line: the chat prefix, `[DM]` exactly when there is a recipient, a space, and the message |
| MockGameServer.SendMessageLogReadBack | packages/app-mock-gameserver/src/lib/gameserver/index.ts:165-174 | the log line gives back the chat event's message, and a `[` right after the prefix shows exactly a direct message |
| MockGameServer.ExecuteConsoleCommand | packages/app-mock-gameserver/src/lib/gameserver/index.ts:116-161 | the store is never changed; the call fails exactly for `connectAll` when `getPlayers` fails, with that error and no event; otherwise success exactly for `version`, `connectAll`, `scenario` or a `say` prefix, each with its result text, else the unknown-command text; `connectAll` first announces each listed player in order; the last event is the green or red log of the command; apart from `connectAll`, that log line is the only event, preceded for `say` by exactly the two events of `sendMessage` without a recipient |
| MockGameServer.SayRoundTrip | packages/app-mock-gameserver/src/lib/gameserver/index.ts:151-156 | `say <m>` answers `Sent message: <m>` and broadcasts `m` as chat |
| MockGameServer.ConnectAllAnnouncesEveryPlayer | packages/app-mock-gameserver/src/lib/gameserver/index.ts:127-140 | on a well-formed store, `connectAll` succeeds and emits a player-connected event for every player record of the server |
| MockGameServer.ConnectAllFailsOnRecordWithoutGameId | packages/app-mock-gameserver/src/lib/gameserver/index.ts:127-140 | a listed player record without `gameId` makes `connectAll` fail with a TypeError, emitting nothing and leaving the store alone |
| MockGameServer.TeleportPlayer | packages/app-mock-gameserver/src/lib/gameserver/index.ts:177-191 | a missing player is NotFoundError with nothing changed; otherwise only the three position fields of that one record change, and one log line names the target |
| MockGameServer.TeleportThenLocation | packages/app-mock-gameserver/src/lib/gameserver/index.ts:177-191 | after a teleport, the player's location is exactly the new coordinates |
| MockGameServer.TeleportKeepsWellFormed | packages/app-mock-gameserver/src/lib/gameserver/index.ts:177-191 | teleporting keeps every player record carrying a `gameId` |
| MockGameServer.KickPlayer | packages/app-mock-gameserver/src/lib/gameserver/index.ts:193-207 | a missing player is NotFoundError; an existing one gets a disconnect event with the kick reason; the store is never touched |
| MockGameServer.StoredBanFor | packages/app-mock-gameserver/src/lib/gameserver/index.ts:216-238 | the stored ban keeps player, reason and expiry, and it has an expiry exactly when one is set and non-empty |
| MockGameServer.StoredBanAsWritten | packages/app-mock-gameserver/src/lib/gameserver/index.ts:230-235 | as written, the stored deadline is the expiry in milliseconds: 1000 times the intended second plus the leftover milliseconds, present exactly when an expiry is set |
| MockGameServer.BanPlayer | packages/app-mock-gameserver/src/lib/gameserver/index.ts:209-239 | a missing player is NotFoundError with nothing changed; otherwise exactly the player's ban key is written, together with one disconnect event |
| MockGameServer.BanPlayerAsWritten | packages/app-mock-gameserver/src/lib/gameserver/index.ts:209-239 | as written, `banPlayer` has the same result and events as the corrected one, and stores the same ban under the same key, but with the millisecond deadline |
| MockGameServer.BanPlayerAsWrittenIsInMilliseconds | packages/app-mock-gameserver/src/lib/gameserver/index.ts:230-235 | banning until 2024-01-02T03:04:05Z, the source stores deadline 1704164645000 where 1704164645 is meant, more than 50000 years later |
| MockGameServer.UnbanPlayer | packages/app-mock-gameserver/src/lib/gameserver/index.ts:241-251 | a missing player is NotFoundError with nothing changed; otherwise exactly the player's ban key is deleted, with one log line |
| MockGameServer.BanThenUnbanRestores | packages/app-mock-gameserver/src/lib/gameserver/index.ts:209-251 | banning and then unbanning a player who was not banned restores the store |
| MockGameServer.BanEntry | packages/app-mock-gameserver/src/lib/gameserver/index.ts:258-267 | a key without a stored ban and a ban whose player has no record contribute nothing; a player record without `gameId` is a TypeError; otherwise the stored reason and expiry together with the whole player built from the record: game id, name, ip and Steam id |
| MockGameServer.BanEntries | packages/app-mock-gameserver/src/lib/gameserver/index.ts:257-270 | fails, with a TypeError, exactly when some entry fails; never more bans than keys, and exactly one per key, in order, when every key holds a ban |
| MockGameServer.BanEntriesMembers | packages/app-mock-gameserver/src/lib/gameserver/index.ts:257-270 | a ban is in the list exactly when some listed key contributes it |
| MockGameServer.BanEntriesAppend | packages/app-mock-gameserver/src/lib/gameserver/index.ts:257-270 | the entries of a concatenated listing are the entries of the first part followed by those of the second; the first failure decides the error |
| MockGameServer.ListBansAsWritten | packages/app-mock-gameserver/src/lib/gameserver/index.ts:253-271 | as written, the listing fails with a store error exactly when `KEYS` found no ban key |
| MockGameServer.ListBans | packages/app-mock-gameserver/src/lib/gameserver/index.ts:253-271 | given the listing `KEYS ban:*` answers: succeeds exactly when every ban key of the server gives an entry; a ban, with its resolved player, is listed exactly when some ban key of the server contributes it; at most one ban per key; no ban keys give an empty list; otherwise it agrees with the listing as written |
| MockGameServer.ListBansAsWrittenFailsWithoutBans | packages/app-mock-gameserver/src/lib/gameserver/index.ts:254-255 | on a server with no ban keys, the empty listing is what `KEYS` answers, and the listing as written fails with a store error |
| MockGameServer.BanThenList | packages/app-mock-gameserver/src/lib/gameserver/index.ts:209-271 | after a successful ban, any listing of the ban keys that succeeds holds the ban with the player built from the player's record, the reason and the expiry; on a well-formed store the listing succeeds |
| MockGameServer.GetMockServer | packages/app-mock-gameserver/src/lib/gameserver/index.ts:309-317 | the cached instance for the name (default `mock`), or a fresh instance cached from then on |
| MockGameServer.SameInstanceForSameName | packages/app-mock-gameserver/src/lib/gameserver/index.ts:309-317 | asking twice for the same name gives the same instance and leaves the cache alone |
| JsonSchemaGenerator.Common | packages/lib-components/src/components/inputs/JsonSchemaForm/generator/index.tsx:13-27 | `type` always; `default` exactly when defined; `title` and `description` exactly when truthy, each with the input's value |
| JsonSchemaGenerator.Typed | packages/lib-components/src/components/inputs/JsonSchemaForm/generator/index.tsx:29-57 | `enum` exactly for enums; `minimum` and `maximum` only for numbers, and `minLength` and `maxLength` only for strings, each exactly when truthy |
| JsonSchemaGenerator.BooleanAddsNoKeys | packages/lib-components/src/components/inputs/JsonSchemaForm/generator/index.tsx:56-57 | a boolean input succeeds and its schema has no key beyond `type`, `default`, `title` and `description` |
| JsonSchemaGenerator.Element | packages/lib-components/src/components/inputs/JsonSchemaForm/generator/index.tsx:12-64 | fails with `Unknown input type` exactly for arrays and unknown types, and has no key outside the nine known ones |
| JsonSchemaGenerator.ElementFields | packages/lib-components/src/components/inputs/JsonSchemaForm/generator/index.tsx:12-64 | each key of an element schema comes from the common stage or the type stage, with that stage's value |
| JsonSchemaGenerator.Entry | packages/lib-components/src/components/inputs/JsonSchemaForm/generator/index.tsx:74-86 | an array input becomes `{type: 'array', items}` with its items' element; any other input becomes its element |
| JsonSchemaGenerator.Properties | packages/lib-components/src/components/inputs/JsonSchemaForm/generator/index.tsx:73-87 | the property names are exactly the input names; each name maps to the entry of its last input; any failing input fails the whole |
| JsonSchemaGenerator.PropertyOrder | packages/lib-components/src/components/inputs/JsonSchemaForm/generator/index.tsx:73-86 | the `properties` keys in object order list each input name exactly once, and nothing else |
| JsonSchemaGenerator.PropertyOrderAppend | packages/lib-components/src/components/inputs/JsonSchemaForm/generator/index.tsx:73-86 | later inputs never move a key already placed: a name repeated later keeps its first position |
| JsonSchemaGenerator.PropertyOrderFollowsFirstUse | packages/lib-components/src/components/inputs/JsonSchemaForm/generator/index.tsx:73-86 | keys are listed in the order in which their names were first used |
| JsonSchemaGenerator.RequiredNames | packages/lib-components/src/components/inputs/JsonSchemaForm/generator/index.tsx:78-80 | a name is required exactly when some input with that name is not `required: false` |
| JsonSchemaGenerator.RequiredNamesAppend | packages/lib-components/src/components/inputs/JsonSchemaForm/generator/index.tsx:73-80 | `required` keeps input order across concatenation |
| JsonSchemaGenerator.GenerateJsonSchema | packages/lib-components/src/components/inputs/JsonSchemaForm/generator/index.tsx:66-90 | succeeds exactly when every input's entry does, giving an object with exactly the keys `type`, `properties` and `required` |
| JsonSchemaGenerator.FalsyValuesExample | packages/lib-components/src/components/inputs/JsonSchemaForm/generator/index.tsx:17-43 | a `false` default is kept, while a zero minimum and an empty title are dropped |
| JsonSchemaGenerator.NestedArrayFails | packages/lib-components/src/components/inputs/JsonSchemaForm/generator/index.tsx:82-83 | an array of arrays makes the whole schema fail |
| Auth.AllCapabilities | packages/app-api/src/service/AuthService.ts:170-172 | a capability is in the user's set exactly when one of the user's roles carries it |
| Auth.AuthMiddleware | packages/app-api/src/service/AuthService.ts:162-189 | no user gives UnauthorizedError; otherwise admitted exactly when the user holds every required capability or ROOT, else ForbiddenError; admission records the user and the user's domain |
| Auth.EmptyRequirementAdmits | packages/app-api/src/service/AuthService.ts:170-189 | with no capability required every signed-in user is admitted, in the user's own domain |
| Auth.RootPassesEverything | packages/app-api/src/service/AuthService.ts:178-185 | a user holding ROOT is admitted whatever capabilities are required |
| Auth.ExtraRoleNeverRevokes | packages/app-api/src/service/AuthService.ts:170-185 | adding a role to a user never turns an admission into a refusal |
| Auth.FewerRequirementsStillAdmit | packages/app-api/src/service/AuthService.ts:174-185 | requiring a subset of capabilities admits every user the larger requirement admits |
| Auth.AdminAuth | packages/app-api/src/service/AuthService.ts:202-214 | passes exactly when credentials are present and the name is `admin`; otherwise UnauthorizedError |
| Auth.AdminAuthIgnoresPassword | packages/app-api/src/service/AuthService.ts:202-214 | the admin gate's verdict never depends on the password |
| Text.WholeSeconds | packages/app-api/src/service/AuthService.ts:90 | the whole seconds of a millisecond instant, rounded down, as the token's `iat` and the intended ban deadline use them |
| Auth.SignClaims | packages/app-api/src/service/AuthService.ts:86-92 | audience `takaro`, subject the user id, the domain; `iat` is the second of the first clock reading and `exp` is five days (432000 seconds) after the second of the second reading |
| Auth.TokenLifetime | packages/app-api/src/service/AuthService.ts:90-91 | the expiry, in milliseconds, lies in the last second up to five days after the second clock reading; `exp - iat` is exactly five days when both readings fall in the same second, and five days or five days and one second when the readings are less than a second apart |
| Auth.StraddlingReadings | packages/app-api/src/service/AuthService.ts:90-91 | readings of 999 ms and 1000 ms give `iat` 0 and `exp` 432001, a lifetime one second longer than five days |
| Auth.OnSigned | packages/app-api/src/service/AuthService.ts:98-110 | a library error rejects with that error; a missing or empty token is UnauthorizedError; otherwise the non-empty token |
| Auth.SignJwt | packages/app-api/src/service/AuthService.ts:84-113 | the token is the library's non-empty token for the claims above |
| Auth.VerifyJwt | packages/app-api/src/service/AuthService.ts:115-136 | a missing or empty token is UnauthorizedError before the library is asked; a rejected token is UnauthorizedError; otherwise the library's payload |
| Auth.MissingTokenIgnoresLibrary | packages/app-api/src/service/AuthService.ts:117-120 | without a token the answer is UnauthorizedError whatever the library would say |
| Auth.GetAgentToken | packages/app-api/src/service/AuthService.ts:67-82 | InternalServerError exactly when there is no root user; otherwise a token signed for the first root user |
| Stepper.CanStepBack | packages/lib-components/src/components/navigation/Steppers/Stepper/index.tsx:67 | stepping back is allowed exactly when the prop is not explicitly `false`; left unset it is allowed |
| Stepper.CurrentStepIsLoading | packages/lib-components/src/components/navigation/Steppers/Stepper/index.tsx:66 | the current step is loading exactly when the prop is explicitly `true`; left unset it is not |
| Stepper.GetStepState | packages/lib-components/src/components/navigation/Steppers/Stepper/index.tsx:72-80 | CURRENT exactly when the index equals the current step, COMPLETE exactly when it is before it, OTHER exactly when it is after it |
| Stepper.HandleClick | packages/lib-components/src/components/navigation/Steppers/Stepper/index.tsx:82-86 | the step changes exactly when the clicked step is complete and stepping back is allowed, and then to the clicked step |
| Stepper.ClickNeverMovesForward | packages/lib-components/src/components/navigation/Steppers/Stepper/index.tsx:82-86 | a click that moves always moves to an earlier step, which then is the current one |
| Stepper.NoStepBackFreezes | packages/lib-components/src/components/navigation/Steppers/Stepper/index.tsx:82-86 | when stepping back is not allowed, no click moves |
| Stepper.CompletedStepClick | packages/lib-components/src/components/navigation/Steppers/Stepper/index.tsx:65-86 | a click on a completed step moves the form back to it unless `canStepBack` is explicitly `false`, in particular when the prop is left unset |
| Stepper.SecondClickIsNoOp | packages/lib-components/src/components/navigation/Steppers/Stepper/index.tsx:82-86 | clicking a step again right after moving to it does nothing |
| Stepper.CounterLabel | packages/lib-components/src/components/navigation/Steppers/Stepper/index.tsx:99-113 | a check mark exactly for completed steps; a spinner exactly for the current step while loading; otherwise the icon when there is one, else the 1-based number |
| Stepper.LoadingOnlyAffectsCurrent | packages/lib-components/src/components/navigation/Steppers/Stepper/index.tsx:99-113 | the loading flag changes the label of the current step only |
| Stepper.SpinnerOnlyWhenLoadingSet | packages/lib-components/src/components/navigation/Steppers/Stepper/index.tsx:65-113 | a spinner is shown exactly on the current step and only when `currentStepIsLoading` is explicitly `true`, never with the prop left unset |
| Help.FlattenMembership | packages/lib-modules/src/modules/utils/commands/help.js:33 | a command is in the flattened list exactly when some module has it |
| Help.FindIndex | packages/lib-modules/src/modules/utils/commands/help.js:34-36 | the position of the first command with the name, or none when no command has it |
| Help.Find | packages/lib-modules/src/modules/utils/commands/help.js:34-36 | the first command with the requested name; none exactly when no command has it |
| Help.ModuleBatch | packages/lib-modules/src/modules/utils/commands/help.js:21-30 | the batch is exactly the multiset of the module's command descriptions, one per command, so a repeated command is described as many times as it occurs |
| Help.BatchSize | packages/lib-modules/src/modules/utils/commands/help.js:21-30 | a batch has exactly one message per command |
| Help.BatchCounts | packages/lib-modules/src/modules/utils/commands/help.js:21-30 | each command's description occurs in the batch at least as often as the command itself |
| Help.Help | packages/lib-modules/src/modules/utils/commands/help.js:15-54 | `all` sends the header and then one batch per module in order; any other argument sends exactly one message |
| Help.FindAppend | packages/lib-modules/src/modules/utils/commands/help.js:34-36 | searching a concatenation finds the first part's command if it has one, else the second part's |
| Help.FindInFlatten | packages/lib-modules/src/modules/utils/commands/help.js:33-36 | the command found in the flattened list is the first one with the name in module order |
| Help.HelpForOneCommand | packages/lib-modules/src/modules/utils/commands/help.js:32-53 | for an unknown name, the unknown-command text; otherwise exactly the description of the first command with that name, reading modules in order and each module's commands in order |
| Help.ListingCountsEveryCommand | packages/lib-modules/src/modules/utils/commands/help.js:15-31 | listing all commands sends one message per installed command, plus the header |
| Help.BatchesCount | packages/lib-modules/src/modules/utils/commands/help.js:20-31 | the messages after the header number exactly the commands of all modules |
| Text.Split | packages/lib-gameserver/src/gameservers/7d2d/index.ts:138 | a split always has at least one piece; an empty text is one empty piece |
| Text.JoinSplit | packages/lib-gameserver/src/gameservers/7d2d/index.ts:138 | joining the pieces of a split with the separator gives back the original text |
| Text.SplitPiecesFree | packages/lib-gameserver/src/gameservers/7d2d/index.ts:138 | no piece of a split contains the separator |
| Text.IndexOf | packages/lib-gameserver/src/gameservers/7d2d/index.ts:149 | the position of the first occurrence of a pattern, or none when it never occurs |
| Text.ReplaceFirst | packages/lib-gameserver/src/gameservers/7d2d/index.ts:149 | with no occurrence the text is unchanged; otherwise the text before the first occurrence, the replacement, and the text after that occurrence, at the computed positions |
| Text.ReplaceFirstAt | packages/lib-gameserver/src/gameservers/7d2d/index.ts:149 | replacing with a string pattern rewrites its first occurrence only, and leaves the text around it alone |
| Text.ReplaceFirstAbsent | packages/lib-gameserver/src/gameservers/7d2d/index.ts:149 | replacing a pattern that does not occur leaves the text unchanged |
| Text.RemovePrefix | packages/app-mock-gameserver/src/lib/gameserver/index.ts:151-152 | replacing the leading `say ` with nothing gives back the rest of the command |
| Text.IntToString | packages/app-mock-gameserver/src/lib/gameserver/index.ts:184-186 | the decimal text is never empty and starts with `-` exactly for a negative number |
| Text.ParseSigned | packages/app-mock-gameserver/src/lib/gameserver/index.ts:110-112 | after the leading whitespace, `parseInt` gives NaN exactly when no digit follows the optional sign; the value is at most 0 after `-` and at least 0 otherwise |
| Text.ParseIntOfIntToString | packages/app-mock-gameserver/src/lib/gameserver/index.ts:184-186 | `parseInt` reads back every integer's decimal text as that integer |
| Text.IntToStringInjective | packages/app-mock-gameserver/src/lib/gameserver/index.ts:43-44 | different integers have different decimal texts |

## Left out

- The 7 Days to Die adapter's `getPlayer` and `getPlayers` return constants. The API client and its HTTP transport are not modelled: their answers are parameters.
- SevenDaysToDie.ExpiresAt: an out-of-range date such as month 13 still matches the pattern and is carried through as text, as in the source. Date validity is not checked.
- The mock server's `giveItem`, `listItems` and `getPlayerInventory` are left out. They send a log line or return faker output or constant lists.
- MockGameServer.ExecuteConsoleCommand: `scenario` starts `playScenario`, which is not part of this model; only its immediate result and log line are modelled.
- MockGameServer.GetPlayer: `ping` is a faker value and is left out of `Player`, here and in `getPlayers`.
- MockGameServer.LookupRecord: a missing hash is `None`, the case the source's `if (!player)` guards are written for. The node-redis client answers `hGetAll` of a missing key with `{}`, which passes those guards: `getPlayer` and so `kickPlayer`, `banPlayer`, `unbanPlayer` and `listBans` reach the TypeError on `gameId`; `teleportPlayer` creates a hash holding only the three position fields and logs `Teleported undefined`; `getPlayerLocation` returns NaN coordinates. The model follows the `null` reading the guards intend.
- MockGameServer.ListBans: the order in which `KEYS ban:*` returns the keys is not fixed, so the listing is a parameter, constrained to hold every ban key of the server exactly once (`KeyListing`); `getPlayers` and `connectAll` take their `player:*` listing the same way. Concurrency between operations is not modelled.
- Ban records are stored as the `BanDTO` value, not as its `JSON.stringify` text, so the JSON round trip is assumed.
- Glob metacharacters in game ids or server names in the `KEYS` patterns are not modelled. Names containing `:` can share keys (`ColonInNameSharesKeys`).
- Numbers are integers: fractional coordinates and numbers whose decimal text uses exponent notation (absolute value of 1e21 or more) are not modelled.
- MockGameServer.BanPlayer: the expiry instant is a parameter. Parsing the date text, and a text that does not parse, are not modelled.
- JsonSchemaGenerator.Properties: a JSON object is modelled as a map, so the `Json` value holds no key order. The order of the `properties` keys is stated apart from it by PropertyOrder. The key order inside the element schemas and the top-level object is not modelled.
- JsonSchemaGenerator.Element: the enumeration values of the input types come from a file that is not part of this model. Lower-case names are assumed.
- The schema generator's React form component is UI and is not modelled.
- Auth: `login`, `logout` and `getUserFromReq` are left out: they call the identity provider and the user store, and the middleware receives their outcome as the optional user. Token signing and verification themselves are library calls, and the signing key is not modelled; the source passes a fixed string literal as the secret where a configuration lookup was evidently meant.
- Stepper: rendering (`StepperSteps`, styles, the header when there are no steps) is UI and is not modelled.
- Help: sending messages is modelled as the batches sent; the module lookup through the API is a parameter.
- Help.Help: every call to the API is taken to succeed. When the module lookup rejects, the command fails before any message is sent. When a send of the `all` listing rejects, `Promise.all` rejects after that module's sends are issued, and the `for` loop stops, so the later modules' batches are never sent. The model describes the run in which no call rejects.
- The Rust event parser, the event emitter and the rest of the repository are outside the modelled core.

## Findings

| source | as written | input that shows it | evidently intended | confidence | as-written member | corrected member |
|---|---|---|---|---|---|---|
| packages/app-mock-gameserver/src/lib/gameserver/index.ts:230-235 | the expiry is passed to `SET … EXAT` as `Date.valueOf()`, which is milliseconds, while `EXAT` takes a Unix time in seconds | expiry 2024-01-02T03:04:05Z, i.e. 1704164645000 ms, is stored as a deadline tens of thousands of years away | the ban expires at the given instant (whole seconds) | high, not executed | MockGameServer.BanPlayerAsWritten | MockGameServer.BanPlayer |
| packages/app-mock-gameserver/src/lib/gameserver/index.ts:254-255 | `mGet(keys)` is called even when `KEYS` found no ban keys; Redis refuses `MGET` with no keys | a server with no bans: `listBans()` rejects instead of returning `[]` | no bans yields an empty list | medium, not executed | MockGameServer.ListBansAsWritten | MockGameServer.ListBans |

=== FILE: auth.dfy ===
/** The API's authorisation decisions: the capability check of the per-route middleware,
    the admin gate, the claims of a signed token and the paths that reject a missing token
    or a missing root user. The identity provider, the user store, `basic-auth` parsing and
    the `jsonwebtoken` library are not modelled; their answers are parameters. */
module Auth {
  import opened Wrappers
  import opened Text

  /** The capability enumeration: `ROOT` and every other capability by name. */
  datatype Capability = Root | Named(name: string)

  datatype Role = Role(capabilities: seq<Capability>)

  datatype User = User(id: string, domain: string, roles: seq<Role>)

  /** The HTTP errors the service raises. */
  datatype HttpError = UnauthorizedError | ForbiddenError | InternalServerError

  /** What a successful middleware call stores on the request. */
  datatype Authenticated = Authenticated(user: User, domainId: string)

  /** Whether one of the user's roles carries capability `c`. */
  predicate Holds(user: User, c: Capability) {
    exists i :: 0 <= i < |user.roles| && c in user.roles[i].capabilities
  }

  /** The `reduce` over the roles: the capabilities of every role, concatenated. */
  function AllCapabilities(roles: seq<Role>): (r: seq<Capability>)
    ensures forall c :: c in r <==> exists i :: 0 <= i < |roles| && c in roles[i].capabilities
  {
    if |roles| == 0 then []
    else
      var front := roles[..|roles| - 1];
      var rest := AllCapabilities(front);
      assert forall i :: 0 <= i < |front| ==> front[i] == roles[i];
      rest + roles[|roles| - 1].capabilities
  }

  /** The capability decision of `getAuthMiddleware`: no resolved user is
      UnauthorizedError; a user who lacks a required capability and does not hold ROOT
      is ForbiddenError; any other user is admitted with the user's own domain. */
  function AuthMiddleware(required: seq<Capability>, user: Option<User>): (r: Result<Authenticated, HttpError>)
    ensures user.None? <==> r == Err(UnauthorizedError)
    ensures user.Some? ==>
      (r.Ok? <==> (forall c :: c in required ==> Holds(user.value, c)) || Holds(user.value, Root))
    ensures user.Some? && r.Err? ==> r.error == ForbiddenError
    ensures r.Ok? ==> r.value == Authenticated(user.value, user.value.domain)
  {
    match user
    case None => Err(UnauthorizedError)
    case Some(u) =>
      var all := AllCapabilities(u.roles);
      var hasAll := forall c :: c in required ==> c in all;
      var hasRoot := Root in all;
      if !hasAll && !hasRoot then Err(ForbiddenError)
      else Ok(Authenticated(u, u.domain))
  }

  /** A route that requires nothing admits every resolved user. */
  lemma EmptyRequirementAdmits(user: User)
    ensures AuthMiddleware([], Some(user)) == Ok(Authenticated(user, user.domain))
  {
  }

  /** A ROOT holder passes every route. */
  lemma RootPassesEverything(required: seq<Capability>, user: User)
    requires Holds(user, Root)
    ensures AuthMiddleware(required, Some(user)).Ok?
  {
  }

  /** Requiring fewer capabilities never turns an admission into a refusal. */
  lemma FewerRequirementsStillAdmit(fewer: seq<Capability>, more: seq<Capability>, user: User)
    requires forall c :: c in fewer ==> c in more
    requires AuthMiddleware(more, Some(user)).Ok?
    ensures AuthMiddleware(fewer, Some(user)).Ok?
  {
  }

  /** Granting a user one more role never revokes an admission. */
  lemma ExtraRoleNeverRevokes(required: seq<Capability>, user: User, extra: Role)
    requires AuthMiddleware(required, Some(user)).Ok?
    ensures AuthMiddleware(required, Some(user.(roles := user.roles + [extra]))).Ok?
  {
    var more := user.(roles := user.roles + [extra]);
    forall c | Holds(user, c) ensures Holds(more, c) {
      var i :| 0 <= i < |user.roles| && c in user.roles[i].capabilities;
      assert more.roles[i] == user.roles[i];
    }
  }

  /** The credentials `basic-auth` parsed from the request. */
  datatype Credentials = Credentials(name: string, pass: string)

  const AdminName := "admin"

  /** `adminAuthMiddleware`: UnauthorizedError without credentials or for any user name
      but `admin`; otherwise the request passes. */
  function AdminAuth(credentials: Option<Credentials>): (r: Result<(), HttpError>)
    ensures r.Ok? <==> credentials.Some? && credentials.value.name == AdminName
    ensures r.Err? ==> r.error == UnauthorizedError
  {
    match credentials
    case None => Err(UnauthorizedError)
    case Some(c) => if c.name != AdminName then Err(UnauthorizedError) else Ok(())
  }

  /** The gate does not look at the password. */
  lemma AdminAuthIgnoresPassword(name: string, pass1: string, pass2: string)
    ensures AdminAuth(Some(Credentials(name, pass1))) == AdminAuth(Some(Credentials(name, pass2)))
  {
  }

  /** The claims of a signed token. */
  datatype Claims = Claims(aud: string, sub: string, domainId: string, iat: int, exp: int)

  const Audience := "takaro"

  /** `ms('5 days')`. */
  const FiveDaysMs: int := 5 * 24 * 60 * 60 * 1000

  /** The payload `signJwt` signs. The source reads the clock twice, once for `iat` and once
      for `exp`; `iatMs` and `expMs` are those two readings, in milliseconds. */
  function SignClaims(userId: string, domainId: string, iatMs: int, expMs: int): (r: Claims)
    ensures r.aud == Audience && r.sub == userId && r.domainId == domainId
    ensures r.iat * 1000 <= iatMs < (r.iat + 1) * 1000
    ensures (r.exp - 432000) * 1000 <= expMs < (r.exp - 432000 + 1) * 1000
  {
    Claims(Audience, userId, domainId, WholeSeconds(iatMs), WholeSeconds(expMs) + FiveDaysMs / 1000)
  }

  /** A token expires between five days minus one second and five days after the second
      clock reading. When the readings are less than a second apart, `exp - iat` is five
      days, or five days and one second if the readings straddle a second boundary. */
  lemma TokenLifetime(userId: string, domainId: string, iatMs: int, expMs: int)
    ensures var c := SignClaims(userId, domainId, iatMs, expMs);
      expMs + FiveDaysMs - 1000 < c.exp * 1000 <= expMs + FiveDaysMs
    ensures var c := SignClaims(userId, domainId, iatMs, expMs);
      WholeSeconds(iatMs) == WholeSeconds(expMs) ==> c.exp - c.iat == 432000
    ensures var c := SignClaims(userId, domainId, iatMs, expMs);
      iatMs <= expMs < iatMs + 1000 ==> c.exp - c.iat == 432000 || c.exp - c.iat == 432001
  {
  }

  /** Readings of 999 ms and 1000 ms give a lifetime one second longer than five days. */
  lemma StraddlingReadings(userId: string, domainId: string)
    ensures var c := SignClaims(userId, domainId, 999, 1000);
      c.iat == 0 && c.exp == 432001
  {
  }

  /** What the signing library hands to its callback: an error and a token, either absent. */
  datatype SignReply = SignReply(err: Option<string>, token: Option<string>)

  /** Why `signJwt` rejects. */
  datatype SignError = LibraryError(message: string) | Http(error: HttpError)

  /** The callback of `jwt.sign`: a library error rejects with that error (the later
      rejection has no effect on a settled promise); an absent or empty token rejects with
      UnauthorizedError; otherwise the token is the result. */
  function OnSigned(reply: SignReply): (r: Result<string, SignError>)
    ensures reply.err.Some? ==> r == Err(LibraryError(reply.err.value))
    ensures reply.err.None? && (reply.token.None? || reply.token.value == "") ==> r == Err(Http(UnauthorizedError))
    ensures r.Ok? ==> reply.token == Some(r.value) && r.value != ""
  {
    if reply.err.Some? then Err(LibraryError(reply.err.value))
    else if reply.token.None? || reply.token.value == "" then Err(Http(UnauthorizedError))
    else Ok(reply.token.value)
  }

  /** `signJwt`, with the library as the parameter `sign` and the two clock readings. */
  function SignJwt(userId: string, domainId: string, iatMs: int, expMs: int, sign: Claims -> SignReply): (r: Result<string, SignError>)
    ensures r.Ok? ==> sign(SignClaims(userId, domainId, iatMs, expMs)).token == Some(r.value) && r.value != ""
    ensures r.Err? && sign(SignClaims(userId, domainId, iatMs, expMs)).err.None? ==> r.error == Http(UnauthorizedError)
  {
    OnSigned(sign(SignClaims(userId, domainId, iatMs, expMs)))
  }

  /** The payload a verified token carries. */
  datatype Payload = Payload(sub: string, domainId: string)

  /** `verifyJwt`, with the library's verdict as `verify` (None for a failed check): an
      absent or empty token is UnauthorizedError without consulting the library, and so is
      a token the library rejects. */
  function VerifyJwt(token: Option<string>, verify: string -> Option<Payload>): (r: Result<Payload, HttpError>)
    ensures token.None? || token.value == "" ==> r == Err(UnauthorizedError)
    ensures r.Err? ==> r.error == UnauthorizedError
    ensures r.Ok? ==> token.Some? && token.value != "" && verify(token.value) == Some(r.value)
  {
    match token
    case None => Err(UnauthorizedError)
    case Some(t) =>
      if t == "" then Err(UnauthorizedError)
      else match verify(t)
        case None => Err(UnauthorizedError)
        case Some(p) => Ok(p)
  }

  /** A missing token is refused whatever the library would say. */
  lemma MissingTokenIgnoresLibrary(verify1: string -> Option<Payload>, verify2: string -> Option<Payload>)
    ensures VerifyJwt(None, verify1) == VerifyJwt(None, verify2) == Err(UnauthorizedError)
  {
  }

  /** `getAgentToken`, with the ids of the users named `root` as a parameter: none is
      InternalServerError; otherwise a token for the first of them. */
  function GetAgentToken(rootIds: seq<string>, domainId: string, iatMs: int, expMs: int, sign: Claims -> SignReply): (r: Result<string, SignError>)
    ensures |rootIds| == 0 <==> r == Err(Http(InternalServerError))
    ensures r.Ok? ==> sign(SignClaims(rootIds[0], domainId, iatMs, expMs)).token == Some(r.value)
  {
    if |rootIds| == 0 then Err(Http(InternalServerError))
    else SignJwt(rootIds[0], domainId, iatMs, expMs, sign)
  }
}

=== FILE: game_types.dfy ===
/** The entities every game-server connector exchanges with its callers. */
module GameTypes {
  import opened Wrappers

  /** The minimal identity used to target a player in a command. */
  datatype PlayerRef = PlayerRef(gameId: string)

  /** A ban: who, why, and an optional expiry timestamp (kept as the text the backend gave). */
  datatype Ban = Ban(player: PlayerRef, reason: string, expiresAt: Option<string>)

  /** The result of one console command; `success = false` is a normal result, not an error. */
  datatype CommandOutput = CommandOutput(rawResult: string, success: bool)

  /** The verdict of a health probe, with a reason when the server is not connectable. */
  datatype ReachabilityResult = ReachabilityResult(connectable: bool, reason: Option<string>)

  /** A position snapshot (integer coordinates only). */
  datatype Position = Position(x: int, y: int, z: int)
}

=== FILE: help.dfy ===
/** The built-in `help` command: the chat messages it sends for a requested command name,
    given the commands of each installed module. Messages for one module are sent
    concurrently, so their order is not fixed: each such batch is a multiset. */
module Help {
  import opened Wrappers

  datatype Command = Command(name: string, helpText: string)

  const AllArgument := "all"
  const AvailableHeader := "Available commands:"
  const UnknownCommandText := "Unknown command, use this command without arguments to see all available commands."

  /** The message describing one command. */
  function Describe(c: Command): string {
    c.name + ": " + c.helpText
  }

  /** `moduleCommands.flat()`. */
  function Flatten(modules: seq<seq<Command>>): (r: seq<Command>)
    ensures |modules| == 0 ==> r == []
  {
    if |modules| == 0 then [] else modules[0] + Flatten(modules[1..])
  }

  /** A command is in the flattened list exactly when some module has it. */
  lemma {:induction false} FlattenMembership(modules: seq<seq<Command>>, c: Command)
    ensures c in Flatten(modules) <==> exists k :: 0 <= k < |modules| && c in modules[k]
  {
    if |modules| > 0 {
      FlattenMembership(modules[1..], c);
      if c in Flatten(modules[1..]) {
        var k :| 0 <= k < |modules[1..]| && c in modules[1..][k];
        assert modules[k + 1] == modules[1..][k];
      }
      if exists k :: 0 <= k < |modules| && c in modules[k] {
        var k :| 0 <= k < |modules| && c in modules[k];
        if k > 0 {
          assert modules[1..][k - 1] == modules[k];
        }
      }
    }
  }

  /** The position of the first command called `name`. */
  function FindIndex(commands: seq<Command>, name: string): (r: Option<nat>)
    ensures r.Some? ==> (r.value < |commands| && commands[r.value].name == name
      && forall j :: 0 <= j < r.value ==> commands[j].name != name)
    ensures r.None? ==> forall j :: 0 <= j < |commands| ==> commands[j].name != name
  {
    if |commands| == 0 then None
    else if commands[0].name == name then Some(0)
    else
      match FindIndex(commands[1..], name)
      case None => None
      case Some(i) => Some(i + 1)
  }

  /** `Array.prototype.find` by name: the first command called `name`. */
  function Find(commands: seq<Command>, name: string): (r: Option<Command>)
    ensures r.Some? ==> exists i :: (0 <= i < |commands| && commands[i] == r.value && r.value.name == name
      && forall j :: 0 <= j < i ==> commands[j].name != name)
    ensures r.None? <==> forall c :: c in commands ==> c.name != name
  {
    match FindIndex(commands, name)
    case None => None
    case Some(i) => Some(commands[i])
  }

  /** The descriptions of `commands`, one per command, in order. */
  function Descriptions(commands: seq<Command>): seq<string> {
    seq(|commands|, i requires 0 <= i < |commands| => Describe(commands[i]))
  }

  /** The messages for one module's commands, in no particular order: each command's
      description, as many times as the command occurs. */
  function ModuleBatch(commands: seq<Command>): (r: multiset<string>)
    ensures r == multiset(Descriptions(commands))
  {
    if |commands| == 0 then multiset{}
    else
      assert Descriptions(commands) == [Describe(commands[0])] + Descriptions(commands[1..]);
      multiset{Describe(commands[0])} + ModuleBatch(commands[1..])
  }

  /** A batch has one message per command. */
  lemma BatchSize(commands: seq<Command>)
    ensures |ModuleBatch(commands)| == |commands|
  {
    assert |Descriptions(commands)| == |commands|;
  }

  /** Each command's description appears in its module's batch at least as often as the
      command itself. */
  lemma {:induction false} BatchCounts(commands: seq<Command>, c: Command)
    ensures multiset(commands)[c] <= ModuleBatch(commands)[Describe(c)]
  {
    if |commands| > 0 {
      var rest := commands[1..];
      BatchCounts(rest, c);
      var m := multiset(rest)[c];
      var b := ModuleBatch(rest)[Describe(c)];
      assert m <= b;
      assert multiset(commands)[c] == (if commands[0] == c then 1 else 0) + m by {
        assert commands == [commands[0]] + rest;
      }
      assert ModuleBatch(commands)[Describe(c)] == (if Describe(commands[0]) == Describe(c) then 1 else 0) + b;
    }
  }

  /** The batches of messages `help` sends, in order. */
  function Help(modules: seq<seq<Command>>, argument: string): (r: seq<multiset<string>>)
    ensures argument == AllArgument ==> (|r| == |modules| + 1 && r[0] == multiset{AvailableHeader}
      && forall k :: 0 <= k < |modules| ==> r[k + 1] == ModuleBatch(modules[k]))
    ensures argument != AllArgument ==> |r| == 1 && |r[0]| == 1
  {
    if argument == AllArgument then
      [multiset{AvailableHeader}] + seq(|modules|, k requires 0 <= k < |modules| => ModuleBatch(modules[k]))
    else
      match Find(Flatten(modules), argument)
      case None => [multiset{UnknownCommandText}]
      case Some(c) => [multiset{Describe(c)}]
  }

  /** `modules[k][i]` is the first command called `name` when the modules are read in
      order and each module's commands in order. */
  predicate FirstAt(modules: seq<seq<Command>>, name: string, k: int, i: int) {
    0 <= k < |modules| && 0 <= i < |modules[k]| && modules[k][i].name == name
    && (forall k', c :: 0 <= k' < k && c in modules[k'] ==> c.name != name)
    && forall j :: 0 <= j < i ==> modules[k][j].name != name
  }

  /** Searching a concatenation searches the first part, then the second. */
  lemma FindAppend(a: seq<Command>, b: seq<Command>, name: string)
    ensures Find(a + b, name) == if Find(a, name).Some? then Find(a, name) else Find(b, name)
  {
    var ia, ib, iab := FindIndex(a, name), FindIndex(b, name), FindIndex(a + b, name);
    if ia.Some? {
      assert (a + b)[ia.value] == a[ia.value];
    } else if ib.Some? {
      assert (a + b)[|a| + ib.value] == b[ib.value];
      assert iab == Some(|a| + ib.value) by {
        forall j | 0 <= j < |a| + ib.value ensures (a + b)[j].name != name {
          if j >= |a| {
            assert (a + b)[j] == b[j - |a|];
          }
        }
      }
    } else {
      forall j | 0 <= j < |a + b| ensures (a + b)[j].name != name {
        if j >= |a| {
          assert (a + b)[j] == b[j - |a|];
        }
      }
    }
  }

  /** The command found in the flattened list is the first one in module order. */
  lemma {:induction false} FindInFlatten(modules: seq<seq<Command>>, name: string)
    ensures Find(Flatten(modules), name).Some? ==>
      exists k, i :: FirstAt(modules, name, k, i) && Find(Flatten(modules), name).value == modules[k][i]
  {
    if |modules| > 0 {
      var rest := modules[1..];
      FindAppend(modules[0], Flatten(rest), name);
      var head := FindIndex(modules[0], name);
      if head.Some? {
        assert FirstAt(modules, name, 0, head.value);
      } else {
        FindInFlatten(rest, name);
        if Find(Flatten(rest), name).Some? {
          var k, i :| FirstAt(rest, name, k, i) && Find(Flatten(rest), name).value == rest[k][i];
          assert rest[k] == modules[k + 1];
          forall k', c | 0 <= k' < k + 1 && c in modules[k'] ensures c.name != name {
            if k' > 0 {
              assert rest[k' - 1] == modules[k'];
            }
          }
          assert FirstAt(modules, name, k + 1, i);
        }
      }
    }
  }

  /** For a single name: the unknown-command text when no module has a command of that
      name, else the description of the first such command in module order. */
  lemma HelpForOneCommand(modules: seq<seq<Command>>, argument: string)
    requires argument != AllArgument
    ensures (forall k, c :: 0 <= k < |modules| && c in modules[k] ==> c.name != argument) ==>
      Help(modules, argument) == [multiset{UnknownCommandText}]
    ensures (exists k, c :: 0 <= k < |modules| && c in modules[k] && c.name == argument) ==>
      exists k, i :: FirstAt(modules, argument, k, i)
        && Help(modules, argument) == [multiset{Describe(modules[k][i])}]
  {
    var found := Find(Flatten(modules), argument);
    if found.Some? {
      FindInFlatten(modules, argument);
    } else {
      forall k, c | 0 <= k < |modules| && c in modules[k] && c.name == argument ensures false {
        FlattenMembership(modules, c);
      }
    }
  }

  /** Listing all commands sends one message per installed command plus the header. */
  lemma {:induction false} ListingCountsEveryCommand(modules: seq<seq<Command>>)
    ensures TotalMessages(Help(modules, AllArgument)) == 1 + |Flatten(modules)|
  {
    var r := Help(modules, AllArgument);
    BatchesCount(modules);
    assert r == [multiset{AvailableHeader}] + r[1..];
    TotalAppend([multiset{AvailableHeader}], r[1..]);
  }

  /** The number of messages in a sequence of batches. */
  function TotalMessages(batches: seq<multiset<string>>): nat {
    if |batches| == 0 then 0 else |batches[0]| + TotalMessages(batches[1..])
  }

  lemma {:induction false} TotalAppend(a: seq<multiset<string>>, b: seq<multiset<string>>)
    ensures TotalMessages(a + b) == TotalMessages(a) + TotalMessages(b)
  {
    if |a| == 0 {
      assert a + b == b;
    } else {
      assert (a + b)[1..] == a[1..] + b;
      TotalAppend(a[1..], b);
    }
  }

  lemma {:induction false} BatchesCount(modules: seq<seq<Command>>)
    ensures TotalMessages(Help(modules, AllArgument)[1..]) == |Flatten(modules)|
  {
    var r := Help(modules, AllArgument);
    if |modules| > 0 {
      BatchesCount(modules[1..]);
      var s := Help(modules[1..], AllArgument);
      assert r[1..][1..] == s[1..];
    }
  }
}

=== FILE: mock_server.dfy ===
/** The mock game server: a simulated backend whose state lives in a Redis store
    namespaced per server instance. Redis is modelled as two maps (hashes for player
    records, string keys for bans, with the absolute expiry the key was given); socket
    broadcasts are returned as the list of events emitted, every one of which the source
    tags with the server's name; faker values are inputs. */
module MockGameServer {
  import opened Wrappers
  import opened Text
  import opened GameTypes

  // ---------------------------------------------------------------------------
  // The store
  // ---------------------------------------------------------------------------

  /** A Redis hash: field name to string value. */
  type Record = map<string, string>

  /** A ban key's value and the absolute expiry (Unix seconds) Redis was given, if any. */
  datatype StoredBan = StoredBan(ban: Ban, expireAt: Option<int>)

  datatype Store = Store(hashes: map<string, Record>, bans: map<string, StoredBan>)

  /** One mock server: the configured prefix name (`mockserver.name`) and its instance name. */
  datatype Server = Server(configName: string, name: string)

  /** `getRedisKey`: every key of a server lives under `mock-game:<config name>:<server name>:`. */
  function RedisKey(srv: Server, key: string): (r: string)
    ensures var prefix := "mock-game:" + srv.configName + ":" + srv.name + ":";
      StartsWith(r, prefix) && r[|prefix|..] == key
  {
    "mock-game:" + srv.configName + ":" + srv.name + ":" + key
  }

  /** `player:<gameId>`: the server's `player:` prefix followed by the game id. */
  function PlayerKey(srv: Server, gameId: string): (r: string)
    ensures StartsWith(r, RedisKey(srv, "player:")) && r[|RedisKey(srv, "player:")|..] == gameId
  {
    assert RedisKey(srv, "player:" + gameId) == RedisKey(srv, "player:") + gameId;
    RedisKey(srv, "player:" + gameId)
  }

  /** `ban:<gameId>`: the server's `ban:` prefix followed by the game id. */
  function BanKey(srv: Server, gameId: string): (r: string)
    ensures StartsWith(r, RedisKey(srv, "ban:")) && r[|RedisKey(srv, "ban:")|..] == gameId
  {
    assert RedisKey(srv, "ban:" + gameId) == RedisKey(srv, "ban:") + gameId;
    RedisKey(srv, "ban:" + gameId)
  }

  /** In `a + ":" + x` with a colon-free `a`, the first colon follows `a`. */
  lemma FirstColon(a: string, x: string)
    requires ':' !in a
    ensures IndexOf(a + ":" + x, ":") == Some(|a|)
  {
    var s := a + ":" + x;
    assert OccursAt(s, ":", |a|) by {
      assert s[|a|..|a| + 1] == [s[|a|]] == ":";
    }
    forall j | 0 <= j < |a| ensures !OccursAt(s, ":", j) {
      assert s[j..j + 1] == [a[j]];
    }
  }

  /** If `a + ":" + x == b + ":" + y` and neither `a` nor `b` holds a colon, then `a == b`. */
  lemma SegmentBeforeColon(a: string, x: string, b: string, y: string)
    requires ':' !in a && ':' !in b
    requires a + ":" + x == b + ":" + y
    ensures a == b
  {
    var s := a + ":" + x;
    FirstColon(a, x);
    FirstColon(b, y);
    assert a == s[..|a|];
    assert b == (b + ":" + y)[..|b|];
  }

  /** Two servers with different colon-free names never share a key. */
  lemma KeysSeparateServers(c: string, n1: string, n2: string, k1: string, k2: string)
    requires ':' !in n1 && ':' !in n2 && n1 != n2
    ensures RedisKey(Server(c, n1), k1) != RedisKey(Server(c, n2), k2)
  {
    if RedisKey(Server(c, n1), k1) == RedisKey(Server(c, n2), k2) {
      var prefix := "mock-game:" + c + ":";
      assert RedisKey(Server(c, n1), k1) == prefix + (n1 + ":" + k1);
      assert RedisKey(Server(c, n2), k2) == prefix + (n2 + ":" + k2);
      assert n1 + ":" + k1 == (prefix + (n1 + ":" + k1))[|prefix|..];
      SegmentBeforeColon(n1, k1, n2, k2);
    }
  }

  /** Without the colon restriction two servers can share a key: server `a:b`'s player
      `0` is server `a`'s key `b:player:0`. */
  lemma ColonInNameSharesKeys(c: string)
    ensures RedisKey(Server(c, "a:b"), "player:0") == RedisKey(Server(c, "a"), "b:player:0")
  {
    var prefix := "mock-game:" + c + ":";
    assert RedisKey(Server(c, "a:b"), "player:0") == prefix + ("a:b" + ":" + "player:0");
    assert RedisKey(Server(c, "a"), "b:player:0") == prefix + ("a" + ":" + "b:player:0");
  }

  /** Within one server, a player key never collides with a ban key, and each is
      determined by its game id. */
  lemma KeysWithinServer(srv: Server, g1: string, g2: string)
    ensures PlayerKey(srv, g1) != BanKey(srv, g2)
    ensures PlayerKey(srv, g1) == PlayerKey(srv, g2) ==> g1 == g2
    ensures BanKey(srv, g1) == BanKey(srv, g2) ==> g1 == g2
  {
    var prefix := "mock-game:" + srv.configName + ":" + srv.name + ":";
    var n := |prefix|;
    assert PlayerKey(srv, g1) == prefix + ("player:" + g1);
    assert BanKey(srv, g2) == prefix + ("ban:" + g2);
    assert PlayerKey(srv, g1)[n] == 'p' && BanKey(srv, g2)[n] == 'b';
    if PlayerKey(srv, g1) == PlayerKey(srv, g2) {
      assert PlayerKey(srv, g2) == prefix + ("player:" + g2);
      assert g1 == PlayerKey(srv, g1)[n + 7..] == g2;
    }
    if BanKey(srv, g1) == BanKey(srv, g2) {
      assert BanKey(srv, g1) == prefix + ("ban:" + g1);
      assert g1 == BanKey(srv, g1)[n + 4..] == g2;
    }
  }

  /** All keys in the store, as the `KEYS` command scans them. */
  function AllKeys(st: Store): set<string> {
    st.hashes.Keys + st.bans.Keys
  }

  /** `keys(<prefix>*)` finds at least one key. */
  predicate AnyKeyWithPrefix(st: Store, prefix: string) {
    exists k :: k in AllKeys(st) && StartsWith(k, prefix)
  }

  // ---------------------------------------------------------------------------
  // Seeding
  // ---------------------------------------------------------------------------

  /** The faker values drawn for one seeded player; `dx`, `dy`, `dz` are the three-digit
      numbers subtracted from 500 to place it. */
  datatype FakeIdentity = FakeIdentity(
    name: string, epicOnlineServicesId: string, steamId: string, xboxLiveId: string,
    dx: nat, dy: nat, dz: nat)

  const SeedCount: nat := 5

  /** The hash written for seeded player number `index`. */
  function SeedRecord(index: nat, f: FakeIdentity): Record {
    map[
      "gameId" := NatToString(index),
      "name" := f.name,
      "epicOnlineServicesId" := f.epicOnlineServicesId,
      "steamId" := f.steamId,
      "xboxLiveId" := f.xboxLiveId,
      "positionX" := IntToString(500 - f.dx),
      "positionY" := IntToString(500 - f.dy),
      "positionZ" := IntToString(500 - f.dz)]
  }

  /** The key of seeded player number `j`. */
  function SeedKey(srv: Server, j: nat): string {
    PlayerKey(srv, NatToString(j))
  }

  lemma SeedKeyInjective(srv: Server, i: nat, j: nat)
    requires i != j
    ensures SeedKey(srv, i) != SeedKey(srv, j)
  {
    if SeedKey(srv, i) == SeedKey(srv, j) {
      KeysWithinServer(srv, NatToString(i), NatToString(j));
      DigitsValueOfNatToString(i);
      DigitsValueOfNatToString(j);
    }
  }

  /** Different seeded players get different keys. */
  lemma SeedKeysDistinct(srv: Server)
    ensures forall i: nat, j: nat :: i != j ==> SeedKey(srv, i) != SeedKey(srv, j)
  {
    forall i: nat, j: nat | i != j ensures SeedKey(srv, i) != SeedKey(srv, j) {
      SeedKeyInjective(srv, i, j);
    }
  }

  /** The records seeding writes, one per fake identity, keyed by player number. */
  function SeedMap(srv: Server, fakes: seq<FakeIdentity>): (m: map<string, Record>)
    ensures forall j :: 0 <= j < |fakes| ==> SeedKey(srv, j) in m && m[SeedKey(srv, j)] == SeedRecord(j, fakes[j])
    ensures forall k :: k in m ==> exists j :: 0 <= j < |fakes| && k == SeedKey(srv, j)
  {
    SeedKeysDistinct(srv);
    map j | 0 <= j < |fakes| :: SeedKey(srv, j) := SeedRecord(j, fakes[j])
  }

  /** `r` is `st` with the five seed records added under their keys: nothing else is
      added and every existing key keeps its value. */
  predicate SeededFrom(st: Store, srv: Server, fakes: seq<FakeIdentity>, r: Store)
    requires |fakes| == SeedCount
  {
    && r.bans == st.bans
    && (forall j :: 0 <= j < SeedCount ==> SeedKey(srv, j) in r.hashes && r.hashes[SeedKey(srv, j)] == SeedRecord(j, fakes[j]))
    && (forall k :: k in r.hashes ==> k in st.hashes || exists j :: 0 <= j < SeedCount && k == SeedKey(srv, j))
    && (forall k :: k in st.hashes ==> k in r.hashes && r.hashes[k] == st.hashes[k])
  }

  /** The writes of a first seeding, into a store without `player:*` keys. */
  function SeedPlayers(st: Store, srv: Server, fakes: seq<FakeIdentity>): (r: Store)
    requires |fakes| == SeedCount
    requires !AnyKeyWithPrefix(st, RedisKey(srv, "player:"))
    ensures SeededFrom(st, srv, fakes, r)
  {
    var seeds := SeedMap(srv, fakes);
    var hashes := st.hashes + seeds;
    assert forall k :: k in st.hashes ==> k in hashes && hashes[k] == st.hashes[k] by {
      SeedKeysFresh(st, srv);
    }
    Store(hashes, st.bans)
  }

  /** `ensurePlayersPersisted`: when any `player:*` key of this server exists nothing is
      written; otherwise exactly five players with game ids "0" to "4" are added. */
  function EnsurePlayersPersisted(st: Store, srv: Server, fakes: seq<FakeIdentity>): (r: Store)
    requires |fakes| == SeedCount
    ensures AnyKeyWithPrefix(st, RedisKey(srv, "player:")) ==> r == st
    ensures !AnyKeyWithPrefix(st, RedisKey(srv, "player:")) ==> SeededFrom(st, srv, fakes, r)
  {
    if AnyKeyWithPrefix(st, RedisKey(srv, "player:")) then st
    else SeedPlayers(st, srv, fakes)
  }

  /** Without any `player:*` key, no seeded key is in use yet. */
  lemma SeedKeysFresh(st: Store, srv: Server)
    requires !AnyKeyWithPrefix(st, RedisKey(srv, "player:"))
    ensures forall j: nat :: SeedKey(srv, j) !in st.hashes
  {
    forall j: nat ensures SeedKey(srv, j) !in st.hashes {
      assert StartsWith(SeedKey(srv, j), RedisKey(srv, "player:"));
    }
  }

  /** Seeding is run-once: a second call, with any faker values, changes nothing. */
  lemma SeedingIsIdempotent(st: Store, srv: Server, fakes1: seq<FakeIdentity>, fakes2: seq<FakeIdentity>)
    requires |fakes1| == SeedCount && |fakes2| == SeedCount
    ensures var once := EnsurePlayersPersisted(st, srv, fakes1);
      EnsurePlayersPersisted(once, srv, fakes2) == once
  {
    var once := EnsurePlayersPersisted(st, srv, fakes1);
    if !AnyKeyWithPrefix(st, RedisKey(srv, "player:")) {
      assert StartsWith(SeedKey(srv, 0), RedisKey(srv, "player:"));
      assert SeedKey(srv, 0) in AllKeys(once);
    }
  }

  /** Field `field` of `rec` holds an integer between -499 and 500. */
  predicate CoordinateInRange(rec: Record, field: string) {
    field in rec && ParseInt(rec[field]).Some? && -499 <= ParseInt(rec[field]).value <= 500
  }

  /** Seeded players stand at integer coordinates between -499 and 500, which
      `getPlayerLocation` reads back. */
  lemma SeededPositionsInRange(index: nat, f: FakeIdentity)
    requires f.dx <= 999 && f.dy <= 999 && f.dz <= 999
    ensures CoordinateInRange(SeedRecord(index, f), "positionX")
    ensures CoordinateInRange(SeedRecord(index, f), "positionY")
    ensures CoordinateInRange(SeedRecord(index, f), "positionZ")
  {
    SeededXInRange(index, f);
    SeededYInRange(index, f);
    SeededZInRange(index, f);
  }

  /** The x coordinate of a seeded player reads back within range. Each coordinate has
      its own lemma, which keeps the other two decimal conversions out of its proof. */
  lemma SeededXInRange(index: nat, f: FakeIdentity)
    requires f.dx <= 999
    ensures CoordinateInRange(SeedRecord(index, f), "positionX")
  {
    PositionKeysDistinct();
    CoordinateReadsBack(SeedRecord(index, f), "positionX", f.dx);
  }

  /** The y coordinate of a seeded player reads back within range. */
  lemma SeededYInRange(index: nat, f: FakeIdentity)
    requires f.dy <= 999
    ensures CoordinateInRange(SeedRecord(index, f), "positionY")
  {
    PositionKeysDistinct();
    CoordinateReadsBack(SeedRecord(index, f), "positionY", f.dy);
  }

  /** The z coordinate of a seeded player reads back within range. */
  lemma SeededZInRange(index: nat, f: FakeIdentity)
    requires f.dz <= 999
    ensures CoordinateInRange(SeedRecord(index, f), "positionZ")
  {
    PositionKeysDistinct();
    CoordinateReadsBack(SeedRecord(index, f), "positionZ", f.dz);
  }

  /** The three position fields are different keys of a record. */
  lemma PositionKeysDistinct()
    ensures "positionX" != "positionY" && "positionX" != "positionZ" && "positionY" != "positionZ"
  {
    assert "positionX"[8] == 'X' && "positionY"[8] == 'Y' && "positionZ"[8] == 'Z';
  }

  /** A field holding `500 - d`, written out in decimal, reads back within range. */
  lemma CoordinateReadsBack(rec: Record, field: string, d: nat)
    requires d <= 999 && field in rec && rec[field] == IntToString(500 - d)
    ensures CoordinateInRange(rec, field)
  {
    DecimalReadsBack(rec[field], 500 - d);
  }

  /** The decimal text of `v` reads back through `parseInt` as `v`. */
  lemma DecimalReadsBack(s: string, v: int)
    requires s == IntToString(v)
    ensures ParseInt(s) == Some(v)
  {
    ParseIntOfIntToString(v);
  }

  // ---------------------------------------------------------------------------
  // Players
  // ---------------------------------------------------------------------------

  /** Errors the mock server raises. */
  datatype MockError =
    | NotFoundError  // "Player not found"
    | TypeError      // a record without a `gameId` field (`player.gameId.toString()`)
    | StoreError     // Redis rejected the command

  /** The player as `getPlayer` builds it (the random ping is left out). */
  datatype Player = Player(gameId: string, name: Option<string>, ip: Option<string>, steamId: Option<string>)

  function Field(rec: Record, f: string): Option<string> {
    if f in rec then Some(rec[f]) else None
  }

  /** `hGetAll` of a player key; an absent key is taken to be `null`, the case the
      source's `if (!player)` guards handle. */
  function LookupRecord(st: Store, srv: Server, gameId: string): (r: Option<Record>)
    ensures r.Some? <==> PlayerKey(srv, gameId) in st.hashes
    ensures r.Some? ==> r.value == st.hashes[PlayerKey(srv, gameId)]
  {
    var k := PlayerKey(srv, gameId);
    if k in st.hashes then Some(st.hashes[k]) else None
  }

  /** `getPlayer`: the stored record as a player, `null` when there is none. */
  function GetPlayer(st: Store, srv: Server, ref: PlayerRef): (r: Result<Option<Player>, MockError>)
    ensures r == Ok(None) <==> PlayerKey(srv, ref.gameId) !in st.hashes
    ensures r.Err? <==> PlayerKey(srv, ref.gameId) in st.hashes && "gameId" !in st.hashes[PlayerKey(srv, ref.gameId)]
    ensures r.Err? ==> r.error == TypeError
    ensures r.Ok? && r.value.Some? ==> var rec := st.hashes[PlayerKey(srv, ref.gameId)];
      r.value.value == Player(rec["gameId"], Field(rec, "name"), Field(rec, "ip"), Field(rec, "steamId"))
  {
    match LookupRecord(st, srv, ref.gameId)
    case None => Ok(None)
    case Some(rec) =>
      if "gameId" !in rec then Err(TypeError)
      else Ok(Some(Player(rec["gameId"], Field(rec, "name"), Field(rec, "ip"), Field(rec, "steamId"))))
  }

  /** Every player record of the server carries a `gameId` field. */
  ghost predicate WellFormed(st: Store, srv: Server) {
    forall g :: PlayerKey(srv, g) in st.hashes ==> "gameId" in st.hashes[PlayerKey(srv, g)]
  }

  /** On a well-formed store `getPlayer` never throws. */
  lemma GetPlayerTotal(st: Store, srv: Server, ref: PlayerRef)
    requires WellFormed(st, srv)
    ensures GetPlayer(st, srv, ref).Ok?
  {
  }

  /** Seeding keeps the store well-formed. */
  lemma SeedingKeepsWellFormed(st: Store, srv: Server, fakes: seq<FakeIdentity>)
    requires |fakes| == SeedCount && WellFormed(st, srv)
    ensures WellFormed(EnsurePlayersPersisted(st, srv, fakes), srv)
  {
  }

  /** `keys` is what `KEYS <prefix>*` answers: every key of the store that starts with
      `prefix`, each once, in some order. */
  predicate KeyListing(st: Store, prefix: string, keys: seq<string>) {
    && (forall i, j :: 0 <= i < j < |keys| ==> keys[i] != keys[j])
    && (forall k :: k in keys ==> k in AllKeys(st) && StartsWith(k, prefix))
    && (forall k :: k in AllKeys(st) && StartsWith(k, prefix) ==> k in keys)
  }

  /** A key under the server's `player:` prefix is the player key of the rest of it. */
  lemma PlayerPrefixKey(srv: Server, k: string)
    requires StartsWith(k, RedisKey(srv, "player:"))
    ensures k == PlayerKey(srv, k[|RedisKey(srv, "player:")|..])
  {
    var prefix := RedisKey(srv, "player:");
    var g := k[|prefix|..];
    assert k == prefix + g;
    assert PlayerKey(srv, g) == prefix + g;
  }

  /** The player built from a record that has a `gameId` (the random ping is left out). */
  function PlayerOf(rec: Record): Player
    requires "gameId" in rec
  {
    Player(rec["gameId"], Field(rec, "name"), Field(rec, "ip"), Field(rec, "steamId"))
  }

  /** `getPlayers`, with `keys` the listing `KEYS <prefix>player:*` returned. Redis rejects
      `hGetAll` of a key that holds a string (WRONGTYPE); once every record is fetched, a
      record without `gameId` throws a TypeError; otherwise one player per key, in order. */
  function GetPlayers(st: Store, keys: seq<string>): (r: Result<seq<Player>, MockError>)
    ensures r == Err(StoreError) <==> exists i :: 0 <= i < |keys| && keys[i] !in st.hashes
    ensures r == Err(TypeError) <==>
      (forall i :: 0 <= i < |keys| ==> keys[i] in st.hashes)
      && exists i :: 0 <= i < |keys| && "gameId" !in st.hashes[keys[i]]
    ensures r.Ok? ==>
      && |r.value| == |keys|
      && forall i :: 0 <= i < |keys| ==>
           keys[i] in st.hashes && "gameId" in st.hashes[keys[i]] && r.value[i] == PlayerOf(st.hashes[keys[i]])
  {
    if exists i :: 0 <= i < |keys| && keys[i] !in st.hashes then Err(StoreError)
    else if exists i :: 0 <= i < |keys| && "gameId" !in st.hashes[keys[i]] then Err(TypeError)
    else Ok(seq(|keys|, i requires 0 <= i < |keys| => PlayerOf(st.hashes[keys[i]])))
  }

  /** On a well-formed store whose ban keys stay out of the `player:` namespace, `getPlayers`
      returns, for every player record of the server, exactly what `getPlayer` returns for
      its game id. */
  lemma GetPlayersCoversStore(st: Store, srv: Server, keys: seq<string>)
    requires KeyListing(st, RedisKey(srv, "player:"), keys)
    requires WellFormed(st, srv)
    requires forall k :: k in st.bans ==> !StartsWith(k, RedisKey(srv, "player:"))
    ensures GetPlayers(st, keys).Ok?
    ensures forall g :: PlayerKey(srv, g) in st.hashes ==>
      exists i :: 0 <= i < |keys| && GetPlayer(st, srv, PlayerRef(g)) == Ok(Some(GetPlayers(st, keys).value[i]))
  {
    forall i | 0 <= i < |keys| ensures keys[i] in st.hashes && "gameId" in st.hashes[keys[i]] {
      assert keys[i] in keys;
      PlayerPrefixKey(srv, keys[i]);
    }
    forall g | PlayerKey(srv, g) in st.hashes
      ensures exists i :: 0 <= i < |keys| && GetPlayer(st, srv, PlayerRef(g)) == Ok(Some(GetPlayers(st, keys).value[i]))
    {
      assert PlayerKey(srv, g) == RedisKey(srv, "player:") + g;
      assert PlayerKey(srv, g) in AllKeys(st);
      var i :| 0 <= i < |keys| && keys[i] == PlayerKey(srv, g);
      assert GetPlayers(st, keys).value[i] == PlayerOf(st.hashes[keys[i]]);
    }
  }

  /** Position coordinates as `parseInt` reads them; `None` stands for `NaN`. */
  datatype ReadPosition = ReadPosition(x: Option<int>, y: Option<int>, z: Option<int>)

  /** `getPlayerLocation`: the stored coordinates of the player, `null` without a record. */
  function GetPlayerLocation(st: Store, srv: Server, ref: PlayerRef): (r: Option<ReadPosition>)
    ensures r.None? <==> PlayerKey(srv, ref.gameId) !in st.hashes
  {
    match LookupRecord(st, srv, ref.gameId)
    case None => None
    case Some(rec) =>
      Some(ReadPosition(
        ParseInt(Interpolate(Field(rec, "positionX"))),
        ParseInt(Interpolate(Field(rec, "positionY"))),
        ParseInt(Interpolate(Field(rec, "positionZ")))))
  }

  // ---------------------------------------------------------------------------
  // Events and operation results
  // ---------------------------------------------------------------------------

  /** A broadcast on the socket server (each also tagged with the server's name). */
  datatype Emit =
    | LogLine(msg: string)
    | ChatMessage(msg: string)
    | PlayerConnected(player: Player, msg: string)
    | PlayerDisconnected(player: Player, msg: string)

  /** An operation's effect: the store afterwards, the events broadcast, and its result. */
  datatype Step<T> = Step(store: Store, emitted: seq<Emit>, result: Result<T, MockError>)

  /** The player name as a template literal shows it. */
  function NameOf(p: Player): string {
    Interpolate(p.name)
  }

  // ---------------------------------------------------------------------------
  // Console commands and messages
  // ---------------------------------------------------------------------------

  const UnknownCommandText := "Unknown command (Command not implemented yet in mock game server \U{1F47C})"

  /** The start of every chat log line. */
  const ChatPrefix := "[\U{1F5E8}\U{FE0F} Chat] Server: "

  /** `sendMessage`: a global chat event and a log line. The log line is the chat prefix,
      `[DM]` when the message has a recipient, a space, then the message. */
  function SendMessage(message: string, hasRecipient: bool): (r: seq<Emit>)
    ensures |r| == 2 && r[0] == ChatMessage(message)
    ensures r[1].LogLine? && StartsWith(r[1].msg, ChatPrefix)
    ensures r[1].msg == ChatPrefix + (if hasRecipient then "[DM] " else " ") + message
  {
    [ChatMessage(message),
     LogLine(ChatPrefix + (if hasRecipient then "[DM]" else "") + " " + message)]
  }

  /** The chat log line gives back both the message the chat event carries and whether
      it had a recipient: after the prefix, a `[` opens the `[DM] ` marker exactly for a
      direct message, and the rest is the message. */
  lemma SendMessageLogReadBack(message: string, hasRecipient: bool)
    ensures var r := SendMessage(message, hasRecipient);
      var rest := r[1].msg[|ChatPrefix|..];
      && |rest| > 0
      && (hasRecipient <==> rest[0] == '[')
      && rest[(if hasRecipient then 5 else 1)..] == r[0].msg
  {
  }

  /** The log line every command ends with: green or red marker, then the raw command. */
  function CommandLog(success: bool, rawCommand: string): Emit {
    LogLine((if success then "\U{1F7E2}" else "\U{1F534}") + " Command executed: " + rawCommand)
  }

  /** The commands the mock server recognises by exact text. */
  predicate IsKnownExact(rawCommand: string) {
    rawCommand == "version" || rawCommand == "connectAll" || rawCommand == "scenario"
  }

  /** The player-connected broadcasts of `connectAll`, one per player, in order. */
  function ConnectedEvents(players: seq<Player>): (r: seq<Emit>)
    ensures |r| == |players|
  {
    seq(|players|, i requires 0 <= i < |players| => PlayerConnected(players[i], NameOf(players[i]) + " connected"))
  }

  /** `executeConsoleCommand`, with `playerKeys` the `player:*` listing `getPlayers` would
      read. The three exact commands and anything starting with `say` succeed with their
      fixed texts; `say` strips the first `"say "` and broadcasts the rest as a chat message;
      `connectAll` first announces every player, and fails, with no log line, when
      `getPlayers` does; every other command fails with the fixed unknown-command text.
      The store is never changed and a completed command ends with its log line. */
  function ExecuteConsoleCommand(st: Store, playerKeys: seq<string>, rawCommand: string): (r: Step<CommandOutput>)
    ensures r.store == st
    ensures r.result.Err? <==> rawCommand == "connectAll" && GetPlayers(st, playerKeys).Err?
    ensures r.result.Err? ==> r.emitted == [] && r.result.error == GetPlayers(st, playerKeys).error
    ensures r.result.Ok? ==>
      (r.result.value.success <==> IsKnownExact(rawCommand) || StartsWith(rawCommand, "say"))
    ensures r.result.Ok? && !r.result.value.success ==> r.result.value.rawResult == UnknownCommandText
    ensures rawCommand == "version" ==> r.result == Ok(CommandOutput("Mock game server v0.0.1", true))
    ensures rawCommand == "connectAll" && r.result.Ok? ==>
      && r.result.value == CommandOutput("Connected all players", true)
      && |r.emitted| == |playerKeys| + 1
      && forall i :: 0 <= i < |playerKeys| ==>
           var p := GetPlayers(st, playerKeys).value[i];
           r.emitted[i] == PlayerConnected(p, NameOf(p) + " connected")
    ensures rawCommand == "scenario" ==> r.result == Ok(CommandOutput("Started scenario", true))
    ensures StartsWith(rawCommand, "say") ==>
      r.result == Ok(CommandOutput("Sent message: " + ReplaceFirst(rawCommand, "say ", ""), true))
    ensures r.result.Ok? ==> |r.emitted| >= 1 && r.emitted[|r.emitted| - 1] == CommandLog(r.result.value.success, rawCommand)
    ensures r.result.Ok? && rawCommand != "connectAll" ==>
      r.emitted == (if StartsWith(rawCommand, "say") then SendMessage(ReplaceFirst(rawCommand, "say ", ""), false) else [])
        + [CommandLog(r.result.value.success, rawCommand)]
  {
    assert !StartsWith("version", "say") && !StartsWith("connectAll", "say") && !StartsWith("scenario", "say") by {
      assert "version"[0] != 's' && "connectAll"[0] != 's' && "scenario"[1] != 'a';
    }
    if rawCommand == "connectAll" then
      match GetPlayers(st, playerKeys)
      case Err(e) => Step(st, [], Err(e))
      case Ok(players) =>
        Step(st, ConnectedEvents(players) + [CommandLog(true, rawCommand)], Ok(CommandOutput("Connected all players", true)))
    else
      var (output, events) :=
        if rawCommand == "version" then (CommandOutput("Mock game server v0.0.1", true), [])
        else if rawCommand == "scenario" then (CommandOutput("Started scenario", true), [])
        else if StartsWith(rawCommand, "say") then
          var message := ReplaceFirst(rawCommand, "say ", "");
          (CommandOutput("Sent message: " + message, true), SendMessage(message, false))
        else (CommandOutput(UnknownCommandText, false), []);
      Step(st, events + [CommandLog(output.success, rawCommand)], Ok(output))
  }

  /** `say <message>` reports the message itself and broadcasts it as global chat. */
  lemma SayRoundTrip(st: Store, playerKeys: seq<string>, message: string)
    ensures var r := ExecuteConsoleCommand(st, playerKeys, "say " + message);
      && r.result == Ok(CommandOutput("Sent message: " + message, true))
      && r.emitted[0] == ChatMessage(message)
  {
    RemovePrefix("say ", message);
    assert StartsWith("say " + message, "say");
  }

  /** On a well-formed store whose ban keys stay out of the `player:` namespace,
      `connectAll` succeeds and announces every player record of the server. */
  lemma ConnectAllAnnouncesEveryPlayer(st: Store, srv: Server, playerKeys: seq<string>)
    requires KeyListing(st, RedisKey(srv, "player:"), playerKeys)
    requires WellFormed(st, srv)
    requires forall k :: k in st.bans ==> !StartsWith(k, RedisKey(srv, "player:"))
    ensures var r := ExecuteConsoleCommand(st, playerKeys, "connectAll");
      && r.result.Ok?
      && forall g :: PlayerKey(srv, g) in st.hashes ==>
           var p := GetPlayer(st, srv, PlayerRef(g)).value.value;
           PlayerConnected(p, NameOf(p) + " connected") in r.emitted
  {
    GetPlayersCoversStore(st, srv, playerKeys);
    var r := ExecuteConsoleCommand(st, playerKeys, "connectAll");
    forall g | PlayerKey(srv, g) in st.hashes
      ensures var p := GetPlayer(st, srv, PlayerRef(g)).value.value;
        PlayerConnected(p, NameOf(p) + " connected") in r.emitted
    {
      var i :| 0 <= i < |playerKeys| && GetPlayer(st, srv, PlayerRef(g)) == Ok(Some(GetPlayers(st, playerKeys).value[i]));
      assert r.emitted[i] == PlayerConnected(GetPlayers(st, playerKeys).value[i], NameOf(GetPlayers(st, playerKeys).value[i]) + " connected");
    }
  }

  /** A player record without `gameId` makes `connectAll` fail with a TypeError and no log. */
  lemma ConnectAllFailsOnRecordWithoutGameId(st: Store, playerKeys: seq<string>, i: int)
    requires forall j :: 0 <= j < |playerKeys| ==> playerKeys[j] in st.hashes
    requires 0 <= i < |playerKeys| && "gameId" !in st.hashes[playerKeys[i]]
    ensures ExecuteConsoleCommand(st, playerKeys, "connectAll") == Step(st, [], Err(TypeError))
  {
  }

  // ---------------------------------------------------------------------------
  // Teleport
  // ---------------------------------------------------------------------------

  /** `teleportPlayer`: overwrite the three position fields of the player's record. */
  function TeleportPlayer(st: Store, srv: Server, ref: PlayerRef, x: int, y: int, z: int): (r: Step<()>)
    ensures PlayerKey(srv, ref.gameId) !in st.hashes ==> r == Step(st, [], Err(NotFoundError))
    ensures PlayerKey(srv, ref.gameId) in st.hashes ==>
      var key := PlayerKey(srv, ref.gameId);
      var old_ := st.hashes[key];
      && r.result.Ok?
      && r.store.bans == st.bans
      && r.store.hashes.Keys == st.hashes.Keys
      && (forall k :: k in st.hashes && k != key ==> r.store.hashes[k] == st.hashes[k])
      && r.store.hashes[key].Keys == old_.Keys + {"positionX", "positionY", "positionZ"}
      && (forall f :: f in old_ && f !in {"positionX", "positionY", "positionZ"} ==> r.store.hashes[key][f] == old_[f])
      && r.emitted == [LogLine("Teleported " + Interpolate(Field(old_, "name")) + " to "
                              + IntToString(x) + ", " + IntToString(y) + ", " + IntToString(z))]
  {
    match LookupRecord(st, srv, ref.gameId)
    case None => Step(st, [], Err(NotFoundError))
    case Some(rec) =>
      var moved := rec["positionX" := IntToString(x)]["positionY" := IntToString(y)]["positionZ" := IntToString(z)];
      Step(Store(st.hashes[PlayerKey(srv, ref.gameId) := moved], st.bans),
           [LogLine("Teleported " + Interpolate(Field(rec, "name")) + " to "
                    + IntToString(x) + ", " + IntToString(y) + ", " + IntToString(z))],
           Ok(()))
  }

  /** After a successful teleport the player's location reads back as exactly `(x, y, z)`. */
  lemma TeleportThenLocation(st: Store, srv: Server, ref: PlayerRef, x: int, y: int, z: int)
    requires TeleportPlayer(st, srv, ref, x, y, z).result.Ok?
    ensures GetPlayerLocation(TeleportPlayer(st, srv, ref, x, y, z).store, srv, ref)
      == Some(ReadPosition(Some(x), Some(y), Some(z)))
  {
    var key := PlayerKey(srv, ref.gameId);
    var after := TeleportPlayer(st, srv, ref, x, y, z).store;
    var moved := after.hashes[key];
    assert Field(moved, "positionX") == Some(IntToString(x));
    assert Field(moved, "positionY") == Some(IntToString(y));
    assert Field(moved, "positionZ") == Some(IntToString(z));
    ParseIntOfIntToString(x);
    ParseIntOfIntToString(y);
    ParseIntOfIntToString(z);
  }

  /** Teleporting keeps the store well-formed. */
  lemma TeleportKeepsWellFormed(st: Store, srv: Server, ref: PlayerRef, x: int, y: int, z: int)
    requires WellFormed(st, srv)
    ensures WellFormed(TeleportPlayer(st, srv, ref, x, y, z).store, srv)
  {
  }

  // ---------------------------------------------------------------------------
  // Kick, ban, unban
  // ---------------------------------------------------------------------------

  /** `kickPlayer`: a disconnect event for an existing player; the store is not touched. */
  function KickPlayer(st: Store, srv: Server, ref: PlayerRef, reason: string): (r: Step<()>)
    ensures r.store == st
    ensures r.result.Ok? <==> GetPlayer(st, srv, ref).Ok? && GetPlayer(st, srv, ref).value.Some?
    ensures GetPlayer(st, srv, ref) == Ok(None) ==> r.result == Err(NotFoundError) && r.emitted == []
    ensures r.result.Ok? ==> var p := GetPlayer(st, srv, ref).value.value;
      r.emitted == [PlayerDisconnected(p, NameOf(p) + " disconnected: Kicked " + reason)]
  {
    match GetPlayer(st, srv, ref)
    case Err(e) => Step(st, [], Err(e))
    case Ok(None) => Step(st, [], Err(NotFoundError))
    case Ok(Some(p)) => Step(st, [PlayerDisconnected(p, NameOf(p) + " disconnected: Kicked " + reason)], Ok(()))
  }

  /** `if (options.expiresAt)`: a missing or empty expiry stores the ban without one. */
  predicate HasExpiry(options: Ban) {
    options.expiresAt.Some? && options.expiresAt.value != ""
  }

  /** The value written under the ban key (what `JSON.parse` later reads back), with the
      expiry as the whole second Redis is meant to drop the key at. */
  function StoredBanFor(options: Ban, expiresAtMs: int): (r: StoredBan)
    ensures r.ban == Ban(options.player, options.reason, options.expiresAt)
    ensures r.expireAt.Some? <==> HasExpiry(options)
    ensures r.expireAt.Some? ==> r.expireAt.value * 1000 <= expiresAtMs < (r.expireAt.value + 1) * 1000
  {
    StoredBan(Ban(options.player, options.reason, options.expiresAt),
              if HasExpiry(options) then Some(WholeSeconds(expiresAtMs)) else None)
  }

  /** The value the source writes: `EXAT` gets `new Date(expiresAt).valueOf()`, which is in
      milliseconds, while Redis reads `EXAT` as Unix seconds. The deadline is therefore the
      intended one times 1000, plus the leftover milliseconds. */
  function StoredBanAsWritten(options: Ban, expiresAtMs: int): (r: StoredBan)
    ensures r.ban == StoredBanFor(options, expiresAtMs).ban
    ensures r.expireAt.Some? <==> HasExpiry(options)
    ensures r.expireAt.Some? ==>
      r.expireAt.value == 1000 * StoredBanFor(options, expiresAtMs).expireAt.value + expiresAtMs % 1000
  {
    StoredBan(Ban(options.player, options.reason, options.expiresAt),
              if HasExpiry(options) then Some(expiresAtMs) else None)
  }

  /** A ban of an existing player: a disconnect event, then `stored` under `ban:<gameId>`. */
  function BanPlayerStoring(st: Store, srv: Server, options: Ban, stored: StoredBan): Step<()> {
    match GetPlayer(st, srv, options.player)
    case Err(e) => Step(st, [], Err(e))
    case Ok(None) => Step(st, [], Err(NotFoundError))
    case Ok(Some(p)) =>
      Step(Store(st.hashes, st.bans[BanKey(srv, options.player.gameId) := stored]),
           [PlayerDisconnected(p, NameOf(p) + " disconnected: Banned " + options.reason
                                  + " until " + Interpolate(options.expiresAt))],
           Ok(()))
  }

  /** `banPlayer`. `expiresAtMs` is the instant the expiry text denotes (the source parses
      it with `Date`). For an existing player: a disconnect event, then the ban is written
      under `ban:<gameId>`, with an expiry if and only if one is given. */
  function BanPlayer(st: Store, srv: Server, options: Ban, expiresAtMs: int): (r: Step<()>)
    ensures r.result.Ok? <==> GetPlayer(st, srv, options.player).Ok? && GetPlayer(st, srv, options.player).value.Some?
    ensures GetPlayer(st, srv, options.player) == Ok(None) ==> r == Step(st, [], Err(NotFoundError))
    ensures r.result.Err? ==> r.store == st
    ensures r.result.Ok? ==>
      && r.store.hashes == st.hashes
      && r.store.bans == st.bans[BanKey(srv, options.player.gameId) := StoredBanFor(options, expiresAtMs)]
      && var p := GetPlayer(st, srv, options.player).value.value;
         r.emitted == [PlayerDisconnected(p, NameOf(p) + " disconnected: Banned " + options.reason
                                             + " until " + Interpolate(options.expiresAt))]
  {
    BanPlayerStoring(st, srv, options, StoredBanFor(options, expiresAtMs))
  }

  /** `banPlayer` as written: the same events and result, but the deadline stored with the
      ban is the millisecond value. */
  function BanPlayerAsWritten(st: Store, srv: Server, options: Ban, expiresAtMs: int): (r: Step<()>)
    ensures r.result == BanPlayer(st, srv, options, expiresAtMs).result
    ensures r.emitted == BanPlayer(st, srv, options, expiresAtMs).emitted
    ensures r.result.Err? ==> r.store == st
    ensures r.result.Ok? ==>
      && r.store.hashes == st.hashes
      && r.store.bans == st.bans[BanKey(srv, options.player.gameId) := StoredBanAsWritten(options, expiresAtMs)]
  {
    BanPlayerStoring(st, srv, options, StoredBanAsWritten(options, expiresAtMs))
  }

  /** Banning until 2024-01-02T03:04:05.000Z, the source asks Redis to drop the key about
      1.7 trillion seconds after 1970, 1000 times the intended deadline and more than
      50,000 years after it. */
  lemma BanPlayerAsWrittenIsInMilliseconds(st: Store, srv: Server, options: Ban)
    requires BanPlayer(st, srv, options, 1704164645000).result.Ok? && HasExpiry(options)
    ensures var key := BanKey(srv, options.player.gameId);
      var written := BanPlayerAsWritten(st, srv, options, 1704164645000).store.bans[key].expireAt;
      var intended := BanPlayer(st, srv, options, 1704164645000).store.bans[key].expireAt;
      && written == Some(1704164645000) && intended == Some(1704164645)
      && written.value - intended.value > 50000 * 366 * 24 * 3600
  {
  }

  /** `unbanPlayer`: for an existing player, a log line and the deletion of exactly its ban key. */
  function UnbanPlayer(st: Store, srv: Server, ref: PlayerRef): (r: Step<()>)
    ensures r.result.Ok? <==> GetPlayer(st, srv, ref).Ok? && GetPlayer(st, srv, ref).value.Some?
    ensures GetPlayer(st, srv, ref) == Ok(None) ==> r == Step(st, [], Err(NotFoundError))
    ensures r.result.Err? ==> r.store == st
    ensures r.result.Ok? ==>
      && r.store == Store(st.hashes, st.bans - {BanKey(srv, ref.gameId)})
      && r.emitted == [LogLine("Unbanned " + NameOf(GetPlayer(st, srv, ref).value.value))]
  {
    match GetPlayer(st, srv, ref)
    case Err(e) => Step(st, [], Err(e))
    case Ok(None) => Step(st, [], Err(NotFoundError))
    case Ok(Some(p)) => Step(Store(st.hashes, st.bans - {BanKey(srv, ref.gameId)}), [LogLine("Unbanned " + NameOf(p))], Ok(()))
  }

  /** Banning and then unbanning a player who was not banned restores the store. */
  lemma BanThenUnbanRestores(st: Store, srv: Server, options: Ban, expiresAtMs: int)
    requires BanKey(srv, options.player.gameId) !in st.bans
    requires BanPlayer(st, srv, options, expiresAtMs).result.Ok?
    ensures var banned := BanPlayer(st, srv, options, expiresAtMs).store;
      UnbanPlayer(banned, srv, options.player).store == st
  {
    var banned := BanPlayer(st, srv, options, expiresAtMs).store;
    assert banned.bans - {BanKey(srv, options.player.gameId)} == st.bans;
  }

  // ---------------------------------------------------------------------------
  // listBans
  // ---------------------------------------------------------------------------

  /** A ban as `listBans` returns it: the stored ban with its player reference replaced
      by the whole player `getPlayer` resolved it to. */
  datatype ListedBan = ListedBan(player: Player, reason: string, expiresAt: Option<string>)

  /** What one key of the `ban:*` listing contributes: nothing when `mGet` finds no value
      there or the banned player has no record, a TypeError when the record lacks `gameId`,
      otherwise the stored reason and expiry with the player built from that record. */
  function BanEntry(st: Store, srv: Server, key: string): (r: Result<Option<ListedBan>, MockError>)
    ensures key !in st.bans ==> r == Ok(None)
    ensures key in st.bans ==>
      var stored := st.bans[key].ban;
      var pk := PlayerKey(srv, stored.player.gameId);
      && (pk !in st.hashes ==> r == Ok(None))
      && (pk in st.hashes && "gameId" !in st.hashes[pk] ==> r == Err(TypeError))
      && (pk in st.hashes && "gameId" in st.hashes[pk] ==>
            r == Ok(Some(ListedBan(PlayerOf(st.hashes[pk]), stored.reason, stored.expiresAt))))
  {
    if key !in st.bans then Ok(None)
    else
      var stored := st.bans[key].ban;
      match GetPlayer(st, srv, stored.player)
      case Err(e) => Err(e)
      case Ok(None) => Ok(None)
      case Ok(Some(p)) => Ok(Some(ListedBan(p, stored.reason, stored.expiresAt)))
  }

  /** The entries for a key listing, in listing order, with the empty ones dropped
      (`filter(Boolean)`); any lookup that throws fails the whole call. */
  function BanEntries(st: Store, srv: Server, keys: seq<string>): (r: Result<seq<ListedBan>, MockError>)
    ensures r.Ok? <==> forall i :: 0 <= i < |keys| ==> BanEntry(st, srv, keys[i]).Ok?
    ensures r.Err? ==> r.error == TypeError
    ensures r.Ok? ==> |r.value| <= |keys|
    ensures r.Ok? && (forall i :: 0 <= i < |keys| ==> BanEntry(st, srv, keys[i]).value.Some?) ==>
      |r.value| == |keys| && forall i :: 0 <= i < |keys| ==> r.value[i] == BanEntry(st, srv, keys[i]).value.value
  {
    if |keys| == 0 then Ok([])
    else
      match BanEntry(st, srv, keys[0])
      case Err(e) => Err(e)
      case Ok(head) =>
        var rest := BanEntries(st, srv, keys[1..]);
        assert forall i :: 1 <= i < |keys| ==> keys[i] == keys[1..][i - 1];
        match rest
        case Err(e) => Err(e)
        case Ok(tail) =>
          match head
          case None => Ok(tail)
          case Some(b) => Ok([b] + tail)
  }

  /** A ban is listed exactly when some key's entry is that ban. */
  lemma {:induction false} BanEntriesMembers(st: Store, srv: Server, keys: seq<string>, b: ListedBan)
    requires BanEntries(st, srv, keys).Ok?
    ensures b in BanEntries(st, srv, keys).value <==> exists i :: 0 <= i < |keys| && BanEntry(st, srv, keys[i]) == Ok(Some(b))
  {
    if |keys| > 0 {
      BanEntriesMembers(st, srv, keys[1..], b);
      if exists i :: 1 <= i < |keys| && BanEntry(st, srv, keys[i]) == Ok(Some(b)) {
        var i :| 1 <= i < |keys| && BanEntry(st, srv, keys[i]) == Ok(Some(b));
        assert keys[1..][i - 1] == keys[i];
      }
      if exists i :: 0 <= i < |keys[1..]| && BanEntry(st, srv, keys[1..][i]) == Ok(Some(b)) {
        var i :| 0 <= i < |keys[1..]| && BanEntry(st, srv, keys[1..][i]) == Ok(Some(b));
        assert keys[i + 1] == keys[1..][i];
      }
    }
  }

  /** Listing keys `a` then keys `b` gives `a`'s entries followed by `b`'s; the first
      failing lookup decides the error. */
  lemma {:induction false} BanEntriesAppend(st: Store, srv: Server, a: seq<string>, b: seq<string>)
    ensures BanEntries(st, srv, a + b) ==
      match BanEntries(st, srv, a)
      case Err(e) => Err(e)
      case Ok(x) =>
        match BanEntries(st, srv, b)
        case Err(e) => Err(e)
        case Ok(y) => Ok(x + y)
  {
    if |a| == 0 {
      assert a + b == b;
      assert BanEntries(st, srv, a) == Ok([]);
      if BanEntries(st, srv, b).Ok? {
        assert [] + BanEntries(st, srv, b).value == BanEntries(st, srv, b).value;
      }
    } else {
      assert (a + b)[0] == a[0];
      assert (a + b)[1..] == a[1..] + b;
      BanEntriesAppend(st, srv, a[1..], b);
      match BanEntry(st, srv, a[0])
      case Err(_) =>
      case Ok(None) =>
      case Ok(Some(h)) =>
        if BanEntries(st, srv, a[1..]).Ok? && BanEntries(st, srv, b).Ok? {
          var x, y := BanEntries(st, srv, a[1..]).value, BanEntries(st, srv, b).value;
          assert [h] + (x + y) == ([h] + x) + y;
        }
    }
  }

  /** `listBans` as written: the `keys` listing goes to `mGet` even when it is empty, and
      Redis rejects `MGET` without keys. Every other failure is a lookup's TypeError. */
  function ListBansAsWritten(st: Store, srv: Server, keys: seq<string>): (r: Result<seq<ListedBan>, MockError>)
    ensures r == Err(StoreError) <==> |keys| == 0
  {
    if |keys| == 0 then Err(StoreError) else BanEntries(st, srv, keys)
  }

  /** On a server without bans the source's `listBans` fails instead of returning nothing. */
  lemma ListBansAsWrittenFailsWithoutBans(st: Store, srv: Server)
    requires !AnyKeyWithPrefix(st, RedisKey(srv, "ban:"))
    ensures KeyListing(st, RedisKey(srv, "ban:"), [])
    ensures ListBansAsWritten(st, srv, []) == Err(StoreError)
  {
  }

  /** `listBans`, with `keys` the listing `KEYS <prefix>ban:*` returned (in its order). The
      result holds exactly the bans stored under the server's `ban:` keys whose player
      resolves, at most one per key; a lookup that throws fails the call; an empty listing
      gives an empty list. */
  function ListBans(st: Store, srv: Server, keys: seq<string>): (r: Result<seq<ListedBan>, MockError>)
    requires KeyListing(st, RedisKey(srv, "ban:"), keys)
    ensures |keys| == 0 ==> r == Ok([])
    ensures r.Ok? <==> forall k :: k in st.bans && StartsWith(k, RedisKey(srv, "ban:")) ==> BanEntry(st, srv, k).Ok?
    ensures r.Ok? ==> |r.value| <= |keys|
    ensures r.Ok? ==> forall b :: b in r.value <==>
      exists k :: k in st.bans && StartsWith(k, RedisKey(srv, "ban:")) && BanEntry(st, srv, k) == Ok(Some(b))
    ensures |keys| > 0 ==> r == ListBansAsWritten(st, srv, keys)
  {
    var r := BanEntries(st, srv, keys);
    forall k | k in st.bans && StartsWith(k, RedisKey(srv, "ban:"))
      ensures exists i :: 0 <= i < |keys| && keys[i] == k
    {
      assert k in keys;
    }
    assert r.Ok? ==> forall b :: b in r.value <==> exists i :: 0 <= i < |keys| && BanEntry(st, srv, keys[i]) == Ok(Some(b)) by {
      if r.Ok? {
        forall b ensures b in r.value <==> exists i :: 0 <= i < |keys| && BanEntry(st, srv, keys[i]) == Ok(Some(b)) {
          BanEntriesMembers(st, srv, keys, b);
        }
      }
    }
    r
  }

  /** A ban written by `banPlayer` is in every later listing, with the player's game id,
      the reason and the expiry text; on a well-formed store the listing succeeds. */
  lemma BanThenList(st: Store, srv: Server, options: Ban, expiresAtMs: int, keys: seq<string>)
    requires BanPlayer(st, srv, options, expiresAtMs).result.Ok?
    requires KeyListing(BanPlayer(st, srv, options, expiresAtMs).store, RedisKey(srv, "ban:"), keys)
    ensures var r := ListBans(BanPlayer(st, srv, options, expiresAtMs).store, srv, keys);
      && (r.Ok? ==>
            ListedBan(PlayerOf(st.hashes[PlayerKey(srv, options.player.gameId)]), options.reason, options.expiresAt) in r.value)
      && (WellFormed(st, srv) ==> r.Ok?)
  {
    var banned := BanPlayer(st, srv, options, expiresAtMs).store;
    var key := BanKey(srv, options.player.gameId);
    assert banned.hashes == st.hashes;
    assert banned.bans[key].ban.player == options.player;
    var expected := ListedBan(PlayerOf(st.hashes[PlayerKey(srv, options.player.gameId)]), options.reason, options.expiresAt);
    assert BanEntry(banned, srv, key) == Ok(Some(expected));
    if WellFormed(st, srv) {
      forall k | k in banned.bans && StartsWith(k, RedisKey(srv, "ban:")) ensures BanEntry(banned, srv, k).Ok? {
        var pk := PlayerKey(srv, banned.bans[k].ban.player.gameId);
        assert pk in st.hashes ==> "gameId" in st.hashes[pk];
      }
    }
  }

  // ---------------------------------------------------------------------------
  // getMockServer
  // ---------------------------------------------------------------------------

  /** The module-level cache of instances: name to instance identity, and how many
      instances have been created (identities are allocated in order). */
  datatype Registry = Registry(instances: map<string, nat>, created: nat)

  /** Every cached identity was allocated before the current counter. */
  ghost predicate RegistryValid(reg: Registry) {
    forall n :: n in reg.instances ==> reg.instances[n] < reg.created
  }

  /** `getMockServer(name = 'mock')`: the cached instance for the name, or a new one that
      is cached from then on. */
  function GetMockServer(reg: Registry, name: Option<string>): (r: (Registry, nat))
    ensures var n := if name.Some? then name.value else "mock";
      && n in r.0.instances && r.0.instances[n] == r.1
      && (n in reg.instances ==> r == (reg, reg.instances[n]))
      && (n !in reg.instances ==> r.0.instances == reg.instances[n := r.1])
    ensures RegistryValid(reg) ==> RegistryValid(r.0)
    ensures RegistryValid(reg) && (if name.Some? then name.value else "mock") !in reg.instances ==>
      r.1 !in reg.instances.Values
  {
    var n := if name.Some? then name.value else "mock";
    if n in reg.instances then (reg, reg.instances[n])
    else (Registry(reg.instances[n := reg.created], reg.created + 1), reg.created)
  }

  /** Asking twice for the same name gives the same instance and leaves the cache alone. */
  lemma SameInstanceForSameName(reg: Registry, name: Option<string>)
    ensures var (reg1, first) := GetMockServer(reg, name);
      GetMockServer(reg1, name) == (reg1, first)
  {
  }
}

=== FILE: schema_gen.dfy ===
/** The JSON-Schema generator of the module-configuration form: a list of field
    descriptors becomes one object schema. Which keys an element schema receives follows
    JavaScript truthiness (`0`, `""` and `undefined` are falsy), except `default`, which is
    copied whenever it is not `undefined`. */
module JsonSchemaGenerator {
  import opened Wrappers

  /** A JSON value; numbers are integers here. */
  datatype Json =
    | JNull
    | JBool(b: bool)
    | JNum(n: int)
    | JStr(s: string)
    | JArr(items: seq<Json>)
    | JObj(fields: map<string, Json>)

  /** The descriptor's `type` and the fields that only that type carries. `OtherKind`
      stands for any `type` value outside the input-type enumeration. */
  datatype Kind =
    | StringKind(minLength: Option<int>, maxLength: Option<int>)
    | NumberKind(minimum: Option<int>, maximum: Option<int>)
    | BooleanKind
    | EnumKind(values: seq<Json>)
    | ArrayKind(items: Input)
    | OtherKind(typeName: string)

  /** One field descriptor of the form; absent optional fields are `undefined`. */
  datatype Input = Input(
    name: string,
    required: Option<bool>,
    default: Option<Json>,
    title: Option<string>,
    description: Option<string>,
    kind: Kind)

  /** The `type` string of each kind. */
  function TypeName(k: Kind): string {
    match k
    case StringKind(_, _) => "string"
    case NumberKind(_, _) => "number"
    case BooleanKind => "boolean"
    case EnumKind(_) => "enum"
    case ArrayKind(_) => "array"
    case OtherKind(t) => t
  }

  const UnknownInputType := "Unknown input type"

  /** JavaScript truthiness of an optional number and of an optional string. */
  predicate TruthyNum(v: Option<int>) { v.Some? && v.value != 0 }
  predicate TruthyStr(v: Option<string>) { v.Some? && v.value != "" }

  /** The keys every element schema may carry, whatever its type. */
  const CommonKeys: set<string> := {"type", "default", "title", "description"}

  /** The keys only some types add. */
  const TypedKeys: set<string> := {"enum", "minimum", "maximum", "minLength", "maxLength"}

  /** The part of an element schema set before the switch on the type: `type`, then
      `default` unless undefined, then `title` and `description` when truthy. */
  function Common(input: Input): (r: map<string, Json>)
    ensures r.Keys <= CommonKeys
    ensures "type" in r && r["type"] == JStr(TypeName(input.kind))
    ensures ("default" in r <==> input.default.Some?) && (input.default.Some? ==> r["default"] == input.default.value)
    ensures ("title" in r <==> TruthyStr(input.title)) && (TruthyStr(input.title) ==> r["title"] == JStr(input.title.value))
    ensures ("description" in r <==> TruthyStr(input.description))
      && (TruthyStr(input.description) ==> r["description"] == JStr(input.description.value))
  {
    var base := map["type" := JStr(TypeName(input.kind))];
    var withDefault := if input.default.Some? then base["default" := input.default.value] else base;
    var withTitle := if TruthyStr(input.title) then withDefault["title" := JStr(input.title.value)] else withDefault;
    if TruthyStr(input.description) then withTitle["description" := JStr(input.description.value)] else withTitle
  }

  /** The keys the switch on the type adds: `enum` for an enum; `minimum` and `maximum`
      for a number and `minLength` and `maxLength` for a string, each only when truthy. */
  function Typed(k: Kind): (r: map<string, Json>)
    ensures r.Keys <= TypedKeys
    ensures ("enum" in r <==> k.EnumKind?) && (k.EnumKind? ==> r["enum"] == JArr(k.values))
    ensures ("minimum" in r <==> k.NumberKind? && TruthyNum(k.minimum)) && ("minimum" in r ==> r["minimum"] == JNum(k.minimum.value))
    ensures ("maximum" in r <==> k.NumberKind? && TruthyNum(k.maximum)) && ("maximum" in r ==> r["maximum"] == JNum(k.maximum.value))
    ensures ("minLength" in r <==> k.StringKind? && TruthyNum(k.minLength))
      && ("minLength" in r ==> r["minLength"] == JNum(k.minLength.value))
    ensures ("maxLength" in r <==> k.StringKind? && TruthyNum(k.maxLength))
      && ("maxLength" in r ==> r["maxLength"] == JNum(k.maxLength.value))
  {
    match k
    case EnumKind(values) => map["enum" := JArr(values)]
    case NumberKind(minimum, maximum) =>
      var withMin: map<string, Json> := if TruthyNum(minimum) then map["minimum" := JNum(minimum.value)] else map[];
      if TruthyNum(maximum) then withMin["maximum" := JNum(maximum.value)] else withMin
    case StringKind(minLength, maxLength) =>
      var withMin: map<string, Json> := if TruthyNum(minLength) then map["minLength" := JNum(minLength.value)] else map[];
      if TruthyNum(maxLength) then withMin["maxLength" := JNum(maxLength.value)] else withMin
    case _ => map[]
  }

  /** `getJsonSchemaElement`: the schema of one input; an array (it is only reached for
      the items of an array) or an unknown type throws. */
  function Element(input: Input): (r: Result<map<string, Json>, string>)
    ensures r.Err? <==> input.kind.ArrayKind? || input.kind.OtherKind?
    ensures r.Err? ==> r.error == UnknownInputType
    ensures r.Ok? ==> r.value.Keys <= CommonKeys + TypedKeys
  {
    if input.kind.ArrayKind? || input.kind.OtherKind? then Err(UnknownInputType)
    else Ok(Common(input) + Typed(input.kind))
  }

  /** Every key of an element schema comes from exactly one of the two stages. */
  lemma ElementFields(input: Input, key: string)
    requires Element(input).Ok?
    ensures key in CommonKeys ==> ((key in Element(input).value <==> key in Common(input))
      && (key in Common(input) ==> Element(input).value[key] == Common(input)[key]))
    ensures key in TypedKeys ==> ((key in Element(input).value <==> key in Typed(input.kind))
      && (key in Typed(input.kind) ==> Element(input).value[key] == Typed(input.kind)[key]))
  {
    assert CommonKeys !! TypedKeys;
  }

  /** The property schema of one input of the form: an array input becomes
      `{type: 'array', items: <element of its items>}` (its own default, title and
      description are not copied); every other input is its element schema. */
  function Entry(input: Input): (r: Result<Json, string>)
    ensures input.kind.ArrayKind? ==>
      (r.Ok? <==> Element(input.kind.items).Ok?)
      && (r.Ok? ==> r.value == JObj(map["type" := JStr("array"), "items" := JObj(Element(input.kind.items).value)]))
    ensures !input.kind.ArrayKind? ==>
      (r.Ok? <==> Element(input).Ok?) && (r.Ok? ==> r.value == JObj(Element(input).value))
  {
    match input.kind
    case ArrayKind(items) =>
      (match Element(items)
       case Ok(e) => Ok(JObj(map["type" := JStr("array"), "items" := JObj(e)]))
       case Err(msg) => Err(msg))
    case _ =>
      (match Element(input)
       case Ok(e) => Ok(JObj(e))
       case Err(msg) => Err(msg))
  }

  /** No later input of `inputs` has the name of input `i`. */
  predicate LastWithName(inputs: seq<Input>, i: nat)
    requires i < |inputs|
  {
    forall j :: i < j < |inputs| ==> inputs[j].name != inputs[i].name
  }

  /** Some input of `inputs` is called `n`. */
  predicate HasName(inputs: seq<Input>, n: string) {
    exists i :: 0 <= i < |inputs| && inputs[i].name == n
  }

  /** A non-empty sequence is its front followed by its last element. */
  lemma FrontAndLast<T>(s: seq<T>)
    requires |s| > 0
    ensures s == s[..|s| - 1] + [s[|s| - 1]]
  {
  }

  /** The names of `front + [last]` are those of `front` and `last`'s. */
  lemma NamesOfSnoc(front: seq<Input>, last: Input)
    ensures forall n :: HasName(front + [last], n) <==> HasName(front, n) || n == last.name
  {
    var inputs := front + [last];
    forall n ensures HasName(inputs, n) <==> HasName(front, n) || n == last.name {
      if HasName(front, n) {
        var i :| 0 <= i < |front| && front[i].name == n;
        assert inputs[i].name == n;
      }
      if HasName(inputs, n) && n != last.name {
        var i :| 0 <= i < |inputs| && inputs[i].name == n;
        assert front[i].name == n;
      }
      if n == last.name {
        assert inputs[|front|].name == n;
      }
    }
  }

  /** An input of `front` that is last with its name in `front + [last]` is so in `front`. */
  lemma LastWithNameOfSnoc(front: seq<Input>, last: Input)
    ensures forall i :: 0 <= i < |front| && LastWithName(front + [last], i) ==>
      LastWithName(front, i) && front[i].name != last.name
  {
    var inputs := front + [last];
    forall i | 0 <= i < |front| && LastWithName(inputs, i)
      ensures LastWithName(front, i) && front[i].name != last.name
    {
      assert inputs[|front|] == last;
      forall j | i < j < |front| ensures front[j].name != front[i].name {
        assert inputs[j] == front[j];
      }
    }
  }

  /** The `properties` object after the loop: one key per input name, and for a name used
      more than once the entry of its last input. The whole call fails if any input fails. */
  function Properties(inputs: seq<Input>): (r: Result<map<string, Json>, string>)
    ensures r.Ok? <==> forall i :: 0 <= i < |inputs| ==> Entry(inputs[i]).Ok?
    ensures r.Err? ==> r.error == UnknownInputType
    ensures r.Ok? ==> forall n :: n in r.value <==> HasName(inputs, n)
    ensures r.Ok? ==> forall i :: 0 <= i < |inputs| ==> inputs[i].name in r.value
    ensures r.Ok? ==> forall i :: 0 <= i < |inputs| && LastWithName(inputs, i) ==>
      r.value[inputs[i].name] == Entry(inputs[i]).value
  {
    if |inputs| == 0 then Ok(map[])
    else
      var front := inputs[..|inputs| - 1];
      var last := inputs[|inputs| - 1];
      match Properties(front)
      case Err(msg) => Err(msg)
      case Ok(props) =>
        match Entry(last)
        case Err(msg) => Err(msg)
        case Ok(e) =>
          FrontAndLast(inputs);
          NamesOfSnoc(front, last);
          LastWithNameOfSnoc(front, last);
          Ok(props[last.name := e])
  }

  /** The order of the `properties` keys. A JavaScript object lists its string keys in the
      order they were first assigned, so each input name appears once, at the place of its
      first input; a later input with the same name only replaces the value. */
  function PropertyOrder(inputs: seq<Input>): (r: seq<string>)
    ensures forall n :: n in r <==> HasName(inputs, n)
    ensures forall k, l :: 0 <= k < l < |r| ==> r[k] != r[l]
  {
    if |inputs| == 0 then []
    else
      var front := inputs[..|inputs| - 1];
      var last := inputs[|inputs| - 1];
      var order := PropertyOrder(front);
      FrontAndLast(inputs);
      NamesOfSnoc(front, last);
      if last.name in order then order else order + [last.name]
  }

  /** More inputs never move a key already placed: the key order of a prefix of the
      inputs is a prefix of the whole key order. */
  lemma {:induction false} PropertyOrderAppend(a: seq<Input>, b: seq<Input>)
    ensures PropertyOrder(a) <= PropertyOrder(a + b)
    decreases |b|
  {
    if |b| == 0 {
      assert a + b == a;
    } else {
      var front := b[..|b| - 1];
      assert (a + b)[..|a + b| - 1] == a + front;
      PropertyOrderAppend(a, front);
    }
  }

  /** No input before input `i` has its name. */
  predicate FirstWithName(inputs: seq<Input>, i: nat)
    requires i < |inputs|
  {
    forall j :: 0 <= j < i ==> inputs[j].name != inputs[i].name
  }

  /** Keys follow the order in which their names were first used: if input `i` is the first
      with its name and comes before input `j`, the first with another name, then `i`'s
      name is listed before `j`'s. */
  lemma PropertyOrderFollowsFirstUse(inputs: seq<Input>, i: nat, j: nat)
    requires i < j < |inputs|
    requires FirstWithName(inputs, i) && FirstWithName(inputs, j)
    ensures var r := PropertyOrder(inputs);
      exists k, l :: 0 <= k < l < |r| && r[k] == inputs[i].name && r[l] == inputs[j].name
  {
    var r := PropertyOrder(inputs);
    var head := inputs[..i + 1];
    assert head + inputs[i + 1..] == inputs;
    PropertyOrderAppend(head, inputs[i + 1..]);
    var p := PropertyOrder(head);
    assert head[i].name == inputs[i].name;
    assert HasName(head, inputs[i].name);
    var k :| 0 <= k < |p| && p[k] == inputs[i].name;
    assert !HasName(head, inputs[j].name);
    assert HasName(inputs, inputs[j].name);
    var l :| 0 <= l < |r| && r[l] == inputs[j].name;
    assert l >= |p| by {
      if l < |p| {
        assert false;
      }
    }
    assert r[k] == p[k];
  }

  /** Whether an input goes into `required`: everything except `required: false`. */
  predicate IsRequired(input: Input) {
    input.required != Some(false)
  }

  /** Some required input of `inputs` is called `n`. */
  predicate HasRequiredName(inputs: seq<Input>, n: string) {
    exists i :: 0 <= i < |inputs| && inputs[i].name == n && IsRequired(inputs[i])
  }

  /** The `required` array: the names of the required inputs, in input order (a repeated
      name is repeated). */
  function RequiredNames(inputs: seq<Input>): (r: seq<string>)
    ensures |r| <= |inputs|
    ensures forall n :: n in r <==> HasRequiredName(inputs, n)
  {
    if |inputs| == 0 then []
    else
      var rest := RequiredNames(inputs[1..]);
      assert forall n :: HasRequiredName(inputs, n) <==>
        (n == inputs[0].name && IsRequired(inputs[0])) || HasRequiredName(inputs[1..], n) by {
        forall n ensures HasRequiredName(inputs, n) <==>
          (n == inputs[0].name && IsRequired(inputs[0])) || HasRequiredName(inputs[1..], n) {
          if HasRequiredName(inputs[1..], n) {
            var i :| 0 <= i < |inputs[1..]| && inputs[1..][i].name == n && IsRequired(inputs[1..][i]);
            assert inputs[i + 1] == inputs[1..][i];
          }
          if HasRequiredName(inputs, n) && !(n == inputs[0].name && IsRequired(inputs[0])) {
            var i :| 0 <= i < |inputs| && inputs[i].name == n && IsRequired(inputs[i]);
            assert inputs[1..][i - 1] == inputs[i];
          }
        }
      }
      (if IsRequired(inputs[0]) then [inputs[0].name] else []) + rest
  }

  /** `required` keeps input order: the names of a concatenation are the concatenated names. */
  lemma {:induction false} RequiredNamesAppend(a: seq<Input>, b: seq<Input>)
    ensures RequiredNames(a + b) == RequiredNames(a) + RequiredNames(b)
    decreases |a|
  {
    if |a| == 0 {
      assert a + b == b;
    } else {
      var head: seq<string> := if IsRequired(a[0]) then [a[0].name] else [];
      assert (a + b)[0] == a[0];
      assert (a + b)[1..] == a[1..] + b;
      assert RequiredNames(a + b) == head + RequiredNames(a[1..] + b);
      RequiredNamesAppend(a[1..], b);
      assert RequiredNames(a) == head + RequiredNames(a[1..]);
    }
  }

  /** A JSON array of strings. */
  function Strings(names: seq<string>): (r: seq<Json>)
    ensures |r| == |names|
    ensures forall k :: 0 <= k < |names| ==> r[k] == JStr(names[k])
  {
    if |names| == 0 then [] else [JStr(names[0])] + Strings(names[1..])
  }

  /** `generateJSONSchema`: `{type: 'object', properties, required}`, or an error when
      some input's schema cannot be built. */
  function GenerateJsonSchema(inputs: seq<Input>): (r: Result<Json, string>)
    ensures r.Ok? <==> forall i :: 0 <= i < |inputs| ==> Entry(inputs[i]).Ok?
    ensures r.Ok? ==> (r.value.JObj? && r.value.fields.Keys == {"type", "properties", "required"}
      && r.value.fields["type"] == JStr("object")
      && r.value.fields["properties"] == JObj(Properties(inputs).value)
      && r.value.fields["required"] == JArr(Strings(RequiredNames(inputs))))
  {
    match Properties(inputs)
    case Err(msg) => Err(msg)
    case Ok(props) =>
      Ok(JObj(map[
        "type" := JStr("object"),
        "properties" := JObj(props),
        "required" := JArr(Strings(RequiredNames(inputs)))]))
  }

  /** A default of `false` or `0` is kept, while a zero bound or an empty title is dropped. */
  lemma FalsyValuesExample(name: string)
    ensures Element(Input(name, None, Some(JBool(false)), Some(""), None, NumberKind(Some(0), Some(10))))
      == Ok(map["type" := JStr("number"), "default" := JBool(false), "maximum" := JNum(10)])
  {
    var input := Input(name, None, Some(JBool(false)), Some(""), None, NumberKind(Some(0), Some(10)));
    assert Common(input).Keys == {"type", "default"};
    assert Common(input) == map["type" := JStr("number"), "default" := JBool(false)];
    assert Typed(input.kind).Keys == {"maximum"};
    assert Typed(input.kind) == map["maximum" := JNum(10)];
    assert Common(input) + Typed(input.kind) == map["type" := JStr("number"), "default" := JBool(false), "maximum" := JNum(10)];
  }

  /** A boolean input adds no key beyond the common ones. */
  lemma BooleanAddsNoKeys(input: Input)
    requires input.kind.BooleanKind?
    ensures Element(input).Ok? && Element(input).value.Keys <= {"type", "default", "title", "description"}
  {
  }

  /** An array of arrays, like any unknown type, makes the whole schema fail. */
  lemma NestedArrayFails(outer: Input, inner: Input)
    requires outer.kind == ArrayKind(inner) && inner.kind.ArrayKind?
    ensures GenerateJsonSchema([outer]).Err?
  {
  }
}

=== FILE: sdtd.dfy ===
/** The 7 Days to Die adapter: it talks to the game's web API, turns the uniform
    connector operations into console command strings, parses the `ban list`
    console table and classifies failed reachability probes. Every call on the
    API client is an input here: the text it returned or the error it threw. */
module SevenDaysToDie {
  import opened Wrappers
  import opened Text
  import opened GameTypes

  // ---------------------------------------------------------------------------
  // The API client, as observed results
  // ---------------------------------------------------------------------------

  datatype HttpResponse = HttpResponse(status: int)

  /** An error thrown by the API client: an axios error (with the HTTP response when
      one was received) or anything else. */
  datatype ApiError = AxiosError(response: Option<HttpResponse>) | NonAxiosError

  /** What one `executeConsoleCommand` call on the API client produced. */
  datatype ApiReply = Reply(result: string) | Thrown(error: ApiError)

  /** Errors the adapter's own operations raise. */
  datatype AdapterError =
    | Transport(cause: ApiError)   // the API client threw; the error propagates unchanged
    | BanListUnavailable           // "Failed to retrieve ban list."

  // ---------------------------------------------------------------------------
  // Console commands
  // ---------------------------------------------------------------------------

  /** The command `sendMessage` sends. */
  function SendMessage(message: string): (r: string)
    ensures |r| == |message| + 6
    ensures r[..5] == "say \"" && r[5..|r| - 1] == message && r[|r| - 1] == '"'
  {
    "say \"" + message + "\""
  }

  /** The command `teleportPlayer` sends (integer coordinates): the word, the game id,
      then the three coordinates, separated by spaces. */
  function TeleportPlayer(player: PlayerRef, x: int, y: int, z: int): (r: string)
    ensures var head := "teleportplayer" + " " + player.gameId + " ";
      && StartsWith(r, head)
      && r[|head|..] == IntToString(x) + " " + IntToString(y) + " " + IntToString(z)
  {
    var (a, b, c, d, e) := ("teleportplayer", player.gameId, IntToString(x), IntToString(y), IntToString(z));
    SpaceAssociates(a + " " + b + " " + c, d, e);
    SpaceAssociates(a + " " + b, c, d + " " + e);
    SpaceAssociates(c, d, e);
    PrefixOfAppend(a + " " + b + " ", c + " " + d + " " + e);
    SuffixOfAppend(a + " " + b + " ", c + " " + d + " " + e);
    a + " " + b + " " + c + " " + d + " " + e
  }

  /** The command `kickPlayer` sends. */
  function KickPlayer(player: PlayerRef, reason: string): (r: string)
    ensures var n := |player.gameId|;
      && |r| == n + |reason| + 10
      && r[..6] == "kick \"" && r[6..6 + n] == player.gameId && r[6 + n..9 + n] == "\" \""
      && r[9 + n..|r| - 1] == reason && r[|r| - 1] == '"'
  {
    "kick \"" + player.gameId + "\" \"" + reason + "\""
  }

  /** The command `banPlayer` sends; an absent expiry is interpolated as `undefined`. */
  function BanPlayer(options: Ban): (r: string)
    ensures StartsWith(r, "ban add ") && r[8..] == options.player.gameId + " " + Interpolate(options.expiresAt) + " " + options.reason
  {
    "ban add " + options.player.gameId + " " + Interpolate(options.expiresAt) + " " + options.reason
  }

  /** The command `unbanPlayer` sends. */
  function UnbanPlayer(player: PlayerRef): (r: string)
    ensures StartsWith(r, "ban remove ") && r[11..] == player.gameId
  {
    "ban remove " + player.gameId
  }

  /** The message sits between the only two double quotes of the `say` command. */
  lemma SendMessageReadBack(message: string)
    requires '"' !in message
    ensures Split(SendMessage(message), '"') == ["say ", message, ""]
  {
    SplitCons("say ", '"', message + "\"");
    assert SendMessage(message) == "say " + ['"'] + (message + "\"");
    SplitCons(message, '"', "");
    assert message + "\"" == message + ['"'] + "";
  }

  /** The teleport command is five space-separated words. */
  lemma TeleportPlayerWords(player: PlayerRef, x: int, y: int, z: int)
    requires ' ' !in player.gameId
    ensures Split(TeleportPlayer(player, x, y, z), ' ')
      == ["teleportplayer", player.gameId, IntToString(x), IntToString(y), IntToString(z)]
  {
    IntToStringPlain(x);
    IntToStringPlain(y);
    IntToStringPlain(z);
    WordsOfFive("teleportplayer", player.gameId, IntToString(x), IntToString(y), IntToString(z));
  }

  /** The teleport command is five space-separated words, and the three coordinates
      read back with `parseInt` as the integers that were sent. */
  lemma TeleportPlayerReadBack(player: PlayerRef, x: int, y: int, z: int)
    requires ' ' !in player.gameId
    ensures var words := Split(TeleportPlayer(player, x, y, z), ' ');
      && words == ["teleportplayer", player.gameId, IntToString(x), IntToString(y), IntToString(z)]
      && ParseInt(words[2]) == Some(x) && ParseInt(words[3]) == Some(y) && ParseInt(words[4]) == Some(z)
  {
    TeleportPlayerWords(player, x, y, z);
    ParseIntOfIntToString(x);
    ParseIntOfIntToString(y);
    ParseIntOfIntToString(z);
  }

  /** Five space-free words joined by single spaces split back into themselves. */
  lemma WordsOfFive(a: string, b: string, c: string, d: string, e: string)
    requires ' ' !in a && ' ' !in b && ' ' !in c && ' ' !in d && ' ' !in e
    ensures Split(a + " " + b + " " + c + " " + d + " " + e, ' ') == [a, b, c, d, e]
  {
    var t3 := d + [' '] + e;
    var t2 := c + [' '] + t3;
    var t1 := b + [' '] + t2;
    assert " " == [' '];
    SpaceAssociates(a + " " + b + " " + c, d, e);
    SpaceAssociates(a + " " + b, c, t3);
    SpaceAssociates(a, b, t2);
    SplitCons(a, ' ', t1);
    SplitCons(b, ' ', t2);
    SplitCons(c, ' ', t3);
    SplitCons(d, ' ', e);
    SplitNoSep(e, ' ');
  }

  /** Regrouping words joined by single spaces. */
  lemma SpaceAssociates(x: string, y: string, z: string)
    ensures x + [' '] + y + [' '] + z == x + [' '] + (y + [' '] + z)
  {
  }

  /** The game id and the reason are the second and fourth quote-delimited pieces. */
  lemma KickPlayerReadBack(player: PlayerRef, reason: string)
    requires '"' !in player.gameId && '"' !in reason
    ensures Split(KickPlayer(player, reason), '"') == ["kick ", player.gameId, " ", reason, ""]
  {
    var id := player.gameId;
    assert KickPlayer(player, reason) == "kick " + ['"'] + (id + ['"'] + (" " + ['"'] + (reason + ['"'] + "")));
    QuotedFields("kick ", id, " ", reason);
  }

  /** Four quote-free fields, each followed by a double quote, split back into themselves and
      an empty tail. */
  lemma QuotedFields(a: string, b: string, c: string, d: string)
    requires '"' !in a && '"' !in b && '"' !in c && '"' !in d
    ensures Split(a + ['"'] + (b + ['"'] + (c + ['"'] + (d + ['"'] + ""))), '"') == [a, b, c, d, ""]
  {
    SplitCons(a, '"', b + ['"'] + (c + ['"'] + (d + ['"'] + "")));
    SplitCons(b, '"', c + ['"'] + (d + ['"'] + ""));
    SplitCons(c, '"', d + ['"'] + "");
    SplitCons(d, '"', "");
  }

  /** `ban add`, the game id and the expiry are the first four words; the rest of the
      command, spaces included, is the reason. */
  lemma BanPlayerReadBack(options: Ban)
    requires ' ' !in options.player.gameId && ' ' !in Interpolate(options.expiresAt)
    ensures var words := Split(BanPlayer(options), ' ');
      && |words| >= 5
      && words[..4] == ["ban", "add", options.player.gameId, Interpolate(options.expiresAt)]
      && Join(words[4..], ' ') == options.reason
  {
    var id, exp, reason := options.player.gameId, Interpolate(options.expiresAt), options.reason;
    assert BanPlayer(options) == "ban" + [' '] + ("add" + [' '] + (id + [' '] + (exp + [' '] + reason)));
    LeadingWords(id, exp, reason);
  }

  /** `ban`, `add` and two space-free words in front of `rest` are the first four pieces of
      the split; the pieces after them join back to `rest`. */
  lemma LeadingWords(id: string, exp: string, rest: string)
    requires ' ' !in id && ' ' !in exp
    ensures var words := Split("ban" + [' '] + ("add" + [' '] + (id + [' '] + (exp + [' '] + rest))), ' ');
      && |words| >= 5
      && words[..4] == ["ban", "add", id, exp]
      && Join(words[4..], ' ') == rest
  {
    SplitCons("ban", ' ', "add" + [' '] + (id + [' '] + (exp + [' '] + rest)));
    SplitCons("add", ' ', id + [' '] + (exp + [' '] + rest));
    SplitCons(id, ' ', exp + [' '] + rest);
    SplitCons(exp, ' ', rest);
    var words := Split("ban" + [' '] + ("add" + [' '] + (id + [' '] + (exp + [' '] + rest))), ' ');
    assert words == ["ban", "add", id, exp] + Split(rest, ' ');
    assert words[4..] == Split(rest, ' ');
    JoinSplit(rest, ' ');
  }

  /** The unban command is `ban remove` followed by the game id as the third word. */
  lemma UnbanPlayerReadBack(player: PlayerRef)
    requires ' ' !in player.gameId
    ensures Split(UnbanPlayer(player), ' ') == ["ban", "remove", player.gameId]
  {
    assert UnbanPlayer(player) == "ban" + [' '] + ("remove" + [' '] + player.gameId);
    SplitCons("ban", ' ', "remove" + [' '] + player.gameId);
    SplitCons("remove", ' ', player.gameId);
    SplitNoSep(player.gameId, ' ');
  }

  /** `executeConsoleCommand`: the API's result text, always reported as a success;
      an error thrown by the API client propagates. */
  function ExecuteConsoleCommand(reply: ApiReply): (r: Result<CommandOutput, AdapterError>)
    ensures r.Ok? <==> reply.Reply?
    ensures r.Ok? ==> r.value.success && r.value.rawResult == reply.result
    ensures reply.Thrown? ==> r == Err(Transport(reply.error))
  {
    match reply
    case Reply(result) => Ok(CommandOutput(result, true))
    case Thrown(e) => Err(Transport(e))
  }

  // ---------------------------------------------------------------------------
  // The ban-line pattern
  //   (\d{4}-\d{2}-\d{2} \d{2}:\d{2}:\d{2}) - (\S+) \(([^)]*)\) - (.*)
  // ---------------------------------------------------------------------------

  /** The captured groups of one ban line: date, game id, display name, reason. */
  datatype BanLineMatch = BanLineMatch(date: string, gameId: string, displayName: string, reason: string)

  /** The shape of the date group; '0' stands for one decimal digit. */
  const DateShape := "0000-00-00 00:00:00"

  /** `\d{4}-\d{2}-\d{2} \d{2}:\d{2}:\d{2}` */
  predicate IsDateTime(d: string) {
    && |d| == |DateShape|
    && forall k :: 0 <= k < |d| ==> if DateShape[k] == '0' then IsDigit(d[k]) else d[k] == DateShape[k]
  }

  /** Where each part of a match that starts at `i` ends: date, " - ", game id, " (",
      display name, ") - ", reason. */
  function GroupEnds(i: nat, m: BanLineMatch): (nat, nat, nat, nat, nat) {
    var p := i + |DateShape|;
    var e := p + 3 + |m.gameId|;
    var q := e + 2 + |m.displayName|;
    (p, p + 3, e, q, q + 4 + |m.reason|)
  }

  /** Reference definition of what the pattern reports when it matches `line` starting at
      position `i`: the four groups in sequence with their separators, where the game id is
      a non-empty run of non-whitespace, the display name holds no `)`, and the reason runs
      up to the end of the line or its first line terminator (`.` stops there, greedily). */
  ghost predicate MatchesAt(line: string, i: nat, m: BanLineMatch) {
    && IsDateTime(m.date)
    && |m.gameId| > 0 && (forall k :: 0 <= k < |m.gameId| ==> !IsJsWhitespace(m.gameId[k]))
    && ')' !in m.displayName
    && (forall k :: 0 <= k < |m.reason| ==> !IsLineTerminator(m.reason[k]))
    && var (p, g, e, q, t) := GroupEnds(i, m);
    && t <= |line|
    && line[i..p] == m.date && line[p..g] == " - "
    && line[g..e] == m.gameId && line[e..e + 2] == " ("
    && line[e + 2..q] == m.displayName && line[q..q + 4] == ") - "
    && line[q + 4..t] == m.reason
    && (t == |line| || IsLineTerminator(line[t]))
  }

  /** The reference definition, established from its facts one by one. */
  lemma MatchesAtIntro(line: string, i: nat, m: BanLineMatch, p: nat, g: nat, e: nat, q: nat, t: nat)
    requires GroupEnds(i, m) == (p, g, e, q, t) && t <= |line|
    requires IsDateTime(m.date)
    requires |m.gameId| > 0 && forall k :: 0 <= k < |m.gameId| ==> !IsJsWhitespace(m.gameId[k])
    requires ')' !in m.displayName
    requires forall k :: 0 <= k < |m.reason| ==> !IsLineTerminator(m.reason[k])
    requires line[i..p] == m.date && line[p..g] == " - "
    requires line[g..e] == m.gameId && line[e..e + 2] == " ("
    requires line[e + 2..q] == m.displayName && line[q..q + 4] == ") - "
    requires line[q + 4..t] == m.reason
    requires t == |line| || IsLineTerminator(line[t])
    ensures MatchesAt(line, i, m)
  {
  }

  /** Read as text, a match is the date, " - ", the game id, " (", the display name,
      ") - " and the reason, one after the other. */
  lemma MatchText(line: string, i: nat, m: BanLineMatch)
    requires MatchesAt(line, i, m)
    ensures var t := GroupEnds(i, m).4;
      line[i..t] == m.date + " - " + m.gameId + " (" + m.displayName + ") - " + m.reason
  {
    var (p, g, e, q, t) := GroupEnds(i, m);
    JoinSlices(line, i, p, g, m.date, " - ");
    JoinSlices(line, i, g, e, m.date + " - ", m.gameId);
    JoinSlices(line, i, e, e + 2, m.date + " - " + m.gameId, " (");
    JoinSlices(line, i, e + 2, q, m.date + " - " + m.gameId + " (", m.displayName);
    JoinSlices(line, i, q, q + 4, m.date + " - " + m.gameId + " (" + m.displayName, ") - ");
    JoinSlices(line, i, q + 4, t, m.date + " - " + m.gameId + " (" + m.displayName + ") - ", m.reason);
  }

  /** Two adjacent slices with known contents make up the slice spanning both. */
  lemma JoinSlices(s: string, a: nat, b: nat, c: nat, x: string, y: string)
    requires a <= b <= c <= |s| && s[a..b] == x && s[b..c] == y
    ensures s[a..c] == x + y
  {
    SliceSplit(s, a, b, c);
  }

  /** Every character of a slice taken inside a run of `keep` characters satisfies `keep`. */
  lemma RunSlice(s: string, from: nat, e: nat, keep: char -> bool)
    requires from <= e <= |s|
    requires forall k :: from <= k < e ==> keep(s[k])
    ensures forall k :: 0 <= k < e - from ==> keep(s[from..e][k])
  {
    forall k | 0 <= k < e - from ensures keep(s[from..e][k]) {
      assert s[from..e][k] == s[from + k];
    }
  }

  /** A slice is the concatenation of its two parts around any inner point. */
  lemma SliceSplit(s: string, a: nat, b: nat, c: nat)
    requires a <= b <= c <= |s|
    ensures s[a..c] == s[a..b] + s[b..c]
  {
  }

  /** Conversely, groups of the right shape written out one after the other with their
      separators form a line that matches at its start. */
  lemma MatchOfText(m: BanLineMatch)
    requires IsDateTime(m.date)
    requires |m.gameId| > 0 && forall k :: 0 <= k < |m.gameId| ==> !IsJsWhitespace(m.gameId[k])
    requires ')' !in m.displayName
    requires forall k :: 0 <= k < |m.reason| ==> !IsLineTerminator(m.reason[k])
    ensures MatchesAt(m.date + " - " + m.gameId + " (" + m.displayName + ") - " + m.reason, 0, m)
  {
    var l1 := m.date + " - ";
    var l2 := l1 + m.gameId;
    var l3 := l2 + " (";
    var l4 := l3 + m.displayName;
    var l5 := l4 + ") - ";
    var line := l5 + m.reason;
    var (p, g, e, q, t) := GroupEnds(0, m);
    assert p == |m.date| && g == |l1| && e == |l2| && q == |l4| && t == |line|;
    PrefixOfAppend(l5, m.reason);
    PrefixOfPrefix(line, l5, l4 + ") - ", l4);
    PrefixOfPrefix(line, l4, l3 + m.displayName, l3);
    PrefixOfPrefix(line, l3, l2 + " (", l2);
    PrefixOfPrefix(line, l2, l1 + m.gameId, l1);
    SuffixOfAppend(l5, m.reason);
    PartOfPrefix(line, l5, l4, ") - ");
    PartOfPrefix(line, l4, l3, m.displayName);
    PartOfPrefix(line, l3, l2, " (");
    PartOfPrefix(line, l2, l1, m.gameId);
    PartOfPrefix(line, l1, m.date, " - ");
    PrefixOfAppend(m.date, " - ");
    PrefixOfPrefix(line, l1, m.date + " - ", m.date);
  }

  /** `x` is the front of `x + y`. */
  lemma PrefixOfAppend(x: string, y: string)
    ensures (x + y)[..|x|] == x
  {
  }

  /** `y` is the back of `x + y`. */
  lemma SuffixOfAppend(x: string, y: string)
    ensures (x + y)[|x|..] == y
  {
  }

  /** The front of a front of `s` is a front of `s`. */
  lemma PrefixOfPrefix(s: string, x: string, xx: string, y: string)
    requires x == xx && |x| <= |s| && s[..|x|] == x
    requires |y| <= |xx| && xx[..|y|] == y
    ensures s[..|y|] == y
  {
    assert s[..|y|] == s[..|x|][..|y|];
  }

  /** When `x + y` is a front of `s`, `y` sits in `s` right after `x`. */
  lemma PartOfPrefix(s: string, xy: string, x: string, y: string)
    requires xy == x + y && |xy| <= |s| && s[..|xy|] == xy
    ensures s[|x|..|x| + |y|] == y
  {
    assert s[|x|..|x| + |y|] == xy[|x|..];
  }

  /** The end of the longest run of characters satisfying `keep` that starts at `from`. */
  function SpanWhile(s: string, from: nat, keep: char -> bool): (e: nat)
    requires from <= |s|
    ensures from <= e <= |s|
    ensures forall k :: from <= k < e ==> keep(s[k])
    ensures e == |s| || !keep(s[e])
    decreases |s| - from
  {
    if from == |s| || !keep(s[from]) then from else SpanWhile(s, from + 1, keep)
  }

  /** A run that ends where `keep` first fails is the one `SpanWhile` finds. */
  lemma SpanWhileUnique(s: string, from: nat, e: nat, keep: char -> bool)
    requires from <= e <= |s|
    requires forall k :: from <= k < e ==> keep(s[k])
    requires e == |s| || !keep(s[e])
    ensures SpanWhile(s, from, keep) == e
    decreases e - from
  {
    if from < e {
      SpanWhileUnique(s, from + 1, e, keep);
    }
  }

  predicate NotWhitespace(c: char) { !IsJsWhitespace(c) }
  predicate NotCloseParen(c: char) { c != ')' }
  predicate NotLineTerminator(c: char) { !IsLineTerminator(c) }

  /** The regular-expression engine's attempt at position `i`. Greedy `\S+` can only succeed
      with the whole run of non-whitespace, `[^)]*` only up to the first `)`, and `.*` takes
      everything up to the first line terminator, so the attempt has a single outcome. */
  function MatchAt(line: string, i: nat): (r: Option<BanLineMatch>)
    requires i <= |line|
    ensures r.Some? ==> MatchesAt(line, i, r.value)
  {
    var p := i + |DateShape|;
    if p + 3 > |line| || !IsDateTime(line[i..p]) || line[p..p + 3] != " - " then None
    else MatchFromGameId(line, i, p + 3)
  }

  /** The attempt after the date and its " - ": the game id, then " (". */
  function MatchFromGameId(line: string, i: nat, g: nat): (r: Option<BanLineMatch>)
    requires i + |DateShape| + 3 == g <= |line|
    requires IsDateTime(line[i..g - 3]) && line[g - 3..g] == " - "
    ensures r.Some? ==> MatchesAt(line, i, r.value)
  {
    var e := SpanWhile(line, g, NotWhitespace);
    if e == g || e + 2 > |line| || line[e..e + 2] != " (" then None
    else MatchFromDisplayName(line, i, g, e)
  }

  /** The attempt after " (": the display name, ") - " and the reason. */
  function MatchFromDisplayName(line: string, i: nat, g: nat, e: nat): (r: Option<BanLineMatch>)
    requires i + |DateShape| + 3 == g < e && e + 2 <= |line|
    requires IsDateTime(line[i..g - 3]) && line[g - 3..g] == " - "
    requires forall k :: g <= k < e ==> NotWhitespace(line[k])
    requires line[e..e + 2] == " ("
    ensures r.Some? ==> MatchesAt(line, i, r.value)
  {
    var q := SpanWhile(line, e + 2, NotCloseParen);
    if q + 4 > |line| || line[q..q + 4] != ") - " then None
    else
      var t := SpanWhile(line, q + 4, NotLineTerminator);
      var m := BanLineMatch(line[i..g - 3], line[g..e], line[e + 2..q], line[q + 4..t]);
      RunSlice(line, g, e, NotWhitespace);
      RunSlice(line, e + 2, q, NotCloseParen);
      RunSlice(line, q + 4, t, NotLineTerminator);
      assert forall k :: 0 <= k < |m.displayName| ==> m.displayName[k] != ')';
      MatchesAtIntro(line, i, m, g - 3, g, e, q, t);
      Some(m)
  }

  /** Whenever the reference definition holds, the engine's attempt reports exactly it;
      together with the contract of `MatchAt` the two agree on every input. */
  lemma MatchAtComplete(line: string, i: nat, m: BanLineMatch)
    requires i <= |line|
    requires MatchesAt(line, i, m)
    ensures MatchAt(line, i) == Some(m)
  {
    var (p, g, e, q, t) := GroupEnds(i, m);
    GroupSpans(line, i, m);
    StagesReport(line, i, m, p, g, e, q, t);
  }

  /** The three stages, run on a line whose groups and runs are known, report those groups. */
  lemma StagesReport(line: string, i: nat, m: BanLineMatch, p: nat, g: nat, e: nat, q: nat, t: nat)
    requires GroupEnds(i, m) == (p, g, e, q, t) && t <= |line| && |m.gameId| > 0
    requires IsDateTime(m.date) && line[i..p] == m.date && line[p..g] == " - "
    requires line[g..e] == m.gameId && line[e..e + 2] == " ("
    requires line[e + 2..q] == m.displayName && line[q..q + 4] == ") - "
    requires line[q + 4..t] == m.reason
    requires SpanWhile(line, g, NotWhitespace) == e
    requires SpanWhile(line, e + 2, NotCloseParen) == q
    requires SpanWhile(line, q + 4, NotLineTerminator) == t
    ensures MatchAt(line, i) == Some(m)
  {
    DisplayNameStageReports(line, i, g, e, q, t);
    assert BanLineMatch(line[i..p], line[g..e], line[e + 2..q], line[q + 4..t]) == m;
    GameIdStageReports(line, i, g, e);
    DateStageReports(line, i);
  }

  /** When the date and its " - " are in place, the first stage hands over to the second. */
  lemma DateStageReports(line: string, i: nat)
    requires i + |DateShape| + 3 <= |line|
    requires IsDateTime(line[i..i + |DateShape|]) && line[i + |DateShape|..i + |DateShape| + 3] == " - "
    ensures MatchAt(line, i) == MatchFromGameId(line, i, i + |DateShape| + 3)
  {
  }

  /** When the game id is a non-empty run followed by " (", the second stage hands over
      to the last. */
  lemma GameIdStageReports(line: string, i: nat, g: nat, e: nat)
    requires i + |DateShape| + 3 == g <= |line|
    requires IsDateTime(line[i..g - 3]) && line[g - 3..g] == " - "
    requires SpanWhile(line, g, NotWhitespace) == e && e != g && e + 2 <= |line| && line[e..e + 2] == " ("
    ensures MatchFromGameId(line, i, g) == MatchFromDisplayName(line, i, g, e)
  {
  }

  /** Once the runs after " (" are known, the last stage reports the groups they delimit. */
  lemma DisplayNameStageReports(line: string, i: nat, g: nat, e: nat, q: nat, t: nat)
    requires i + |DateShape| + 3 == g < e && e + 2 <= |line|
    requires IsDateTime(line[i..g - 3]) && line[g - 3..g] == " - "
    requires forall k :: g <= k < e ==> NotWhitespace(line[k])
    requires line[e..e + 2] == " ("
    requires SpanWhile(line, e + 2, NotCloseParen) == q && q + 4 <= |line| && line[q..q + 4] == ") - "
    requires SpanWhile(line, q + 4, NotLineTerminator) == t
    ensures MatchFromDisplayName(line, i, g, e)
      == Some(BanLineMatch(line[i..g - 3], line[g..e], line[e + 2..q], line[q + 4..t]))
  {
  }

  /** The runs the engine scans end exactly where the groups of a match end. */
  lemma GroupSpans(line: string, i: nat, m: BanLineMatch)
    requires MatchesAt(line, i, m)
    ensures var (p, g, e, q, t) := GroupEnds(i, m);
      && SpanWhile(line, g, NotWhitespace) == e
      && SpanWhile(line, e + 2, NotCloseParen) == q
      && SpanWhile(line, q + 4, NotLineTerminator) == t
  {
    var (p, g, e, q, t) := GroupEnds(i, m);
    assert line[e] == line[e..e + 2][0];
    RunEndsAt(line, g, e, NotWhitespace, m.gameId);
    assert forall k :: 0 <= k < |m.displayName| ==> NotCloseParen(m.displayName[k]);
    assert line[q] == line[q..q + 4][0];
    RunEndsAt(line, e + 2, q, NotCloseParen, m.displayName);
    RunEndsAt(line, q + 4, t, NotLineTerminator, m.reason);
  }

  /** A run of `keep` characters that stops where `keep` first fails is the one `SpanWhile`
      finds. */
  lemma RunEndsAt(line: string, from: nat, e: nat, keep: char -> bool, run: string)
    requires from <= e <= |line| && line[from..e] == run
    requires forall k :: 0 <= k < |run| ==> keep(run[k])
    requires e == |line| || !keep(line[e])
    ensures SpanWhile(line, from, keep) == e
  {
    forall k | from <= k < e ensures keep(line[k]) {
      assert line[k] == run[k - from];
    }
    SpanWhileUnique(line, from, e, keep);
  }

  /** The leftmost position at or after `from` where the pattern matches. */
  function FirstMatchFrom(line: string, from: nat): (r: Option<nat>)
    requires from <= |line|
    ensures r.Some? ==> from <= r.value <= |line| && MatchAt(line, r.value).Some?
    ensures forall j :: from <= j <= |line| && (r.None? || j < r.value) ==> MatchAt(line, j).None?
    decreases |line| - from
  {
    if MatchAt(line, from).Some? then Some(from)
    else if from == |line| then None
    else FirstMatchFrom(line, from + 1)
  }

  /** `line.match(pattern)`: an unanchored search that reports the leftmost match. */
  function MatchLine(line: string): (r: Option<BanLineMatch>)
    ensures r.Some? <==> exists i :: 0 <= i <= |line| && MatchAt(line, i).Some?
    ensures r.Some? ==> exists i :: (0 <= i <= |line| && MatchesAt(line, i, r.value)
      && forall j, m' :: 0 <= j < i ==> !MatchesAt(line, j, m'))
  {
    match FirstMatchFrom(line, 0)
    case None => None
    case Some(i) =>
      assert forall j, m' :: 0 <= j < i ==> !MatchesAt(line, j, m') by {
        forall j, m' | 0 <= j < i && MatchesAt(line, j, m')
          ensures false
        {
          MatchAtComplete(line, j, m');
        }
      }
      MatchAt(line, i)
  }

  // ---------------------------------------------------------------------------
  // listBans
  // ---------------------------------------------------------------------------

  /** The ban expiry: the date with its (first) space replaced by `T`, then `.000Z`. */
  function ExpiresAt(date: string): (r: string)
    ensures |r| >= 5 && r[|r| - 5..] == ".000Z"
  {
    ReplaceFirst(date, " ", "T") + ".000Z"
  }

  /** For a well-formed date this is the ISO-8601 UTC form `YYYY-MM-DDTHH:MM:SS.000Z`. */
  lemma ExpiresAtIsIso(date: string)
    requires IsDateTime(date)
    ensures ExpiresAt(date) == date[..10] + "T" + date[11..] + ".000Z"
  {
    assert DateShape[10] == ' ';
    assert date[10] == ' ';
    assert OccursAt(date, " ", 10) by {
      assert date[10..11] == [date[10]];
    }
    forall j | 0 <= j < 10 ensures !OccursAt(date, " ", j) {
      assert date[j..j + 1][0] == date[j];
      assert DateShape[j] != ' ';
    }
    ReplaceFirstAt(date, " ", "T", 10);
  }

  /** The ban one matched line stands for; the display name is dropped. */
  function ToBan(m: BanLineMatch): (r: Ban)
    ensures r.player == PlayerRef(m.gameId) && r.reason == m.reason
    ensures IsDateTime(m.date) ==> r.expiresAt == Some(m.date[..10] + "T" + m.date[11..] + ".000Z")
  {
    assert IsDateTime(m.date) ==> ExpiresAt(m.date) == m.date[..10] + "T" + m.date[11..] + ".000Z" by {
      if IsDateTime(m.date) {
        ExpiresAtIsIso(m.date);
      }
    }
    Ban(PlayerRef(m.gameId), m.reason, Some(ExpiresAt(m.date)))
  }

  /** The bans found in the table lines, in line order; lines that do not match are skipped. */
  function ParseBanLines(lines: seq<string>): (r: seq<Ban>)
    ensures |r| <= |lines|
  {
    if |lines| == 0 then [] else LineBans(lines[0]) + ParseBanLines(lines[1..])
  }

  /** What one table line contributes: the ban of its leftmost match, or nothing. */
  function LineBans(line: string): (r: seq<Ban>)
    ensures |r| <= 1
  {
    match MatchLine(line)
    case Some(m) => [ToBan(m)]
    case None => []
  }

  /** Parsing distributes over concatenation of the table: each line contributes on its own. */
  lemma {:induction false} ParseBanLinesAppend(a: seq<string>, b: seq<string>)
    ensures ParseBanLines(a + b) == ParseBanLines(a) + ParseBanLines(b)
    decreases |a|
  {
    if |a| == 0 {
      assert a + b == b;
    } else {
      assert (a + b)[0] == a[0];
      assert (a + b)[1..] == a[1..] + b;
      ParseBanLinesAppend(a[1..], b);
    }
  }

  /** A single line gives one ban (its leftmost match) or nothing. */
  lemma ParseBanLine(line: string)
    ensures MatchLine(line).None? ==> ParseBanLines([line]) == []
    ensures MatchLine(line).Some? ==> ParseBanLines([line]) == [ToBan(MatchLine(line).value)]
  {
  }

  /** A line the pattern does not match is skipped without affecting the other bans. */
  lemma SkipsUnmatchedLine(before: seq<string>, line: string, after: seq<string>)
    requires MatchLine(line).None?
    ensures ParseBanLines(before + [line] + after) == ParseBanLines(before + after)
  {
    ParseBanLinesAppend(before + [line], after);
    ParseBanLinesAppend(before, [line]);
    ParseBanLinesAppend(before, after);
  }

  /** The pattern matches somewhere in `line`. */
  predicate LineMatches(line: string) {
    MatchLine(line).Some?
  }

  /** For each table line, whether the pattern matches it. */
  function MatchFlags(lines: seq<string>): (r: seq<bool>)
    ensures |r| == |lines|
  {
    seq(|lines|, i requires 0 <= i < |lines| => LineMatches(lines[i]))
  }

  /** The positions holding `true`. */
  function TruePositions(flags: seq<bool>): set<int> {
    set i | 0 <= i < |flags| && flags[i]
  }

  /** The positions of the table lines the pattern matches. */
  function MatchingLines(lines: seq<string>): set<int> {
    TruePositions(MatchFlags(lines))
  }

  /** The `true` positions of all but the last flag, plus the last position when it is set. */
  lemma TruePositionsSnoc(flags: seq<bool>)
    requires |flags| > 0
    ensures var n := |flags| - 1;
      |TruePositions(flags)| == |TruePositions(flags[..n])| + (if flags[n] then 1 else 0)
  {
    var n := |flags| - 1;
    var front := TruePositions(flags[..n]);
    if flags[n] {
      assert TruePositions(flags) == front + {n};
      assert n !in front;
    } else {
      assert TruePositions(flags) == front;
    }
  }

  /** The matching positions of all but the last line, plus the last position when that
      line matches. */
  lemma MatchingLinesSnoc(lines: seq<string>)
    requires |lines| > 0
    ensures var n := |lines| - 1;
      |MatchingLines(lines)| == |MatchingLines(lines[..n])| + (if LineMatches(lines[n]) then 1 else 0)
  {
    var n := |lines| - 1;
    var flags := MatchFlags(lines);
    assert MatchFlags(lines[..n]) == flags[..n] by {
      forall i | 0 <= i < n ensures MatchFlags(lines[..n])[i] == flags[i] {
        assert lines[..n][i] == lines[i];
      }
    }
    TruePositionsSnoc(flags);
  }

  /** The number of bans is the number of table lines the pattern matches. */
  lemma {:induction false} ParseBanLinesCount(lines: seq<string>)
    ensures |ParseBanLines(lines)| == |MatchingLines(lines)|
    decreases |lines|
  {
    if |lines| > 0 {
      var n := |lines| - 1;
      var front := lines[..n];
      assert lines == front + [lines[n]];
      ParseBanLinesAppend(front, [lines[n]]);
      ParseBanLine(lines[n]);
      ParseBanLinesCount(front);
      MatchingLinesSnoc(lines);
    }
  }

  /** `listBans` after its `ban list` command: the whole call fails when the command
      reports failure or returns empty text; otherwise the first line is discarded as the
      table header and the remaining lines are parsed. */
  function ListBans(output: CommandOutput): (r: Result<seq<Ban>, AdapterError>)
    ensures r.Err? <==> !output.success || output.rawResult == ""
    ensures r.Err? ==> r.error == BanListUnavailable
  {
    if !output.success || output.rawResult == "" then Err(BanListUnavailable)
    else Ok(ParseBanLines(Split(output.rawResult, '\n')[1..]))
  }

  /** `listBans` end to end, from the reply of the API client to the `ban list` command. */
  function ListBansCall(reply: ApiReply): (r: Result<seq<Ban>, AdapterError>)
    ensures reply.Thrown? ==> r == Err(Transport(reply.error))
    ensures reply.Reply? ==> (r.Err? <==> reply.result == "")
  {
    match ExecuteConsoleCommand(reply)
    case Err(e) => Err(e)
    case Ok(output) => ListBans(output)
  }

  /** Whatever the first line holds, even a well-formed ban line, only the lines after it
      count: the result is the parse of the rest of the output. */
  lemma HeaderIsDiscarded(header: string, rest: string)
    requires '\n' !in header
    ensures ListBans(CommandOutput(header + "\n" + rest, true)) == Ok(ParseBanLines(Split(rest, '\n')))
  {
    assert header + "\n" + rest == header + ['\n'] + rest;
    SplitCons(header, '\n', rest);
  }

  /** Output without a line break is all header and gives no bans. */
  lemma SingleLineGivesNoBans(raw: string)
    requires raw != "" && '\n' !in raw
    ensures ListBans(CommandOutput(raw, true)) == Ok([])
  {
    SplitNoSep(raw, '\n');
  }

  /** The ban line of the documented example, `2024-01-02 03:04:05 - 77 (bob) - griefing`,
      written as its parts. */
  const ExampleDate := "2024-01-02" + " " + "03:04:05"
  const ExampleBanLine := ExampleDate + " - " + "77" + " (" + "bob" + ") - " + "griefing"

  /** The example date in ISO form. */
  const ExampleExpiresAt := "2024-01-02" + "T" + "03:04:05" + ".000Z"

  /** The documented example: a header, one ban line and one line of garbage give exactly
      one ban, with the display name dropped and the date in ISO form. */
  lemma ListBansExample()
    ensures ListBansCall(Reply("Name | Date" + "\n" + ExampleBanLine + "\n" + "garbage line" + "\n"))
      == Ok([Ban(PlayerRef("77"), "griefing", Some(ExampleExpiresAt))])
  {
    var raw := "Name | Date" + "\n" + ExampleBanLine + "\n" + "garbage line" + "\n";
    assert raw != "" by { assert |raw| > 0; }
    ExampleLines();
    ExampleTable();
  }

  lemma ExampleTable()
    ensures ParseBanLines([ExampleBanLine, "garbage line", ""])
      == [Ban(PlayerRef("77"), "griefing", Some(ExampleExpiresAt))]
  {
    ExampleBanLineParses();
    NoMatchInShortLine("garbage line");
    NoMatchInShortLine("");
    var lines := [ExampleBanLine, "garbage line", ""];
    assert ParseBanLines(lines) == LineBans(lines[0]) + ParseBanLines(lines[1..]);
    assert ParseBanLines(lines[1..]) == LineBans(lines[1]) + ParseBanLines(lines[2..]);
    assert ParseBanLines(lines[2..]) == LineBans(lines[2]) + ParseBanLines([]);
  }

  /** The example output splits into its header and three more lines, the last one empty. */
  lemma ExampleLines()
    ensures Split("Name | Date" + "\n" + ExampleBanLine + "\n" + "garbage line" + "\n", '\n')[1..]
      == [ExampleBanLine, "garbage line", ""]
  {
    var header, line, garbage := "Name | Date", ExampleBanLine, "garbage line";
    assert header + "\n" + line + "\n" + garbage + "\n" == header + ['\n'] + (line + ['\n'] + (garbage + ['\n'] + ""));
    assert '\n' !in header && '\n' !in garbage;
    assert '\n' !in line by {
      assert forall k :: 0 <= k < |line| ==> line[k] != '\n';
    }
    SplitCons(header, '\n', line + ['\n'] + (garbage + ['\n'] + ""));
    SplitCons(line, '\n', garbage + ['\n'] + "");
    SplitCons(garbage, '\n', "");
  }

  /** The example ban line gives the ban of game id 77. */
  lemma ExampleBanLineParses()
    ensures LineBans(ExampleBanLine) == [Ban(PlayerRef("77"), "griefing", Some(ExampleExpiresAt))]
  {
    var m := BanLineMatch(ExampleDate, "77", "bob", "griefing");
    ExampleMatches(m);
    MatchAtComplete(ExampleBanLine, 0, m);
    assert MatchLine(ExampleBanLine) == Some(m);
    ExampleExpiry();
  }

  lemma ExampleExpiry()
    ensures ExpiresAt(ExampleDate) == ExampleExpiresAt
  {
    assert IsDateTime(ExampleDate);
    ExpiresAtIsIso(ExampleDate);
    assert ExampleDate[..10] == "2024-01-02";
    assert ExampleDate[11..] == "03:04:05";
  }

  lemma ExampleMatches(m: BanLineMatch)
    requires m == BanLineMatch(ExampleDate, "77", "bob", "griefing")
    ensures MatchesAt(ExampleBanLine, 0, m)
  {
    assert IsDateTime(m.date);
    assert forall k :: 0 <= k < |m.gameId| ==> !IsJsWhitespace(m.gameId[k]);
    assert forall k :: 0 <= k < |m.reason| ==> !IsLineTerminator(m.reason[k]);
    MatchOfText(m);
  }

  /** A line shorter than the date and its " - " cannot match anywhere. */
  lemma NoMatchInShortLine(line: string)
    requires |line| < |DateShape| + 3
    ensures MatchLine(line).None?
  {
    forall i | 0 <= i <= |line| ensures MatchAt(line, i).None? { }
  }

  // ---------------------------------------------------------------------------
  // testReachability
  // ---------------------------------------------------------------------------

  const UnexpectedReason := "Unexpected error, this might be a bug"
  const NoResponseReason :=
    "Did not receive a response, please check that the server is running, the IP/port is correct and that it is not firewalled"
  const UnauthorizedReason := "Unauthorized, please check that the admin user and token are correct"
  const NetworkReason := "Network error"

  /** The reason given for a failed probe; the four cases partition the errors. */
  function FailureReason(e: ApiError): (r: string)
    ensures |r| > 0
    ensures r == UnexpectedReason <==> e.NonAxiosError?
    ensures r == NoResponseReason <==> e.AxiosError? && e.response.None?
    ensures r == UnauthorizedReason <==> e.AxiosError? && e.response.Some? && e.response.value.status in {401, 403}
    ensures r == NetworkReason <==> e.AxiosError? && e.response.Some? && e.response.value.status !in {401, 403}
  {
    match e
    case NonAxiosError => UnexpectedReason
    case AxiosError(None) => NoResponseReason
    case AxiosError(Some(resp)) =>
      if resp.status == 403 || resp.status == 401 then UnauthorizedReason else NetworkReason
  }

  /** Outcome of one probe request. */
  datatype Probe = Succeeded | Failed(error: ApiError)

  /** `testReachability`: the stats request, then (only if it succeeded) the `version`
      command. It never throws: any failure becomes `connectable = false` with the reason
      for the first error. */
  function TestReachability(stats: Probe, version: Probe): (r: ReachabilityResult)
    ensures r.connectable <==> stats.Succeeded? && version.Succeeded?
    ensures r.connectable <==> r.reason.None?
    ensures stats.Failed? ==> r.reason == Some(FailureReason(stats.error))
    ensures stats.Succeeded? && version.Failed? ==> r.reason == Some(FailureReason(version.error))
    ensures !r.connectable ==> r.reason.value in {UnexpectedReason, NoResponseReason, UnauthorizedReason, NetworkReason}
  {
    match (stats, version)
    case (Failed(e), _) => ReachabilityResult(false, Some(FailureReason(e)))
    case (Succeeded, Failed(e)) => ReachabilityResult(false, Some(FailureReason(e)))
    case (Succeeded, Succeeded) => ReachabilityResult(true, None)
  }

  // ---------------------------------------------------------------------------
  // getPlayerLocation
  // ---------------------------------------------------------------------------

  /** One entry of the API's player-location list. */
  datatype LocationEntry = LocationEntry(steamid: string, position: Position)

  /** The key the location list is searched by: `Steam_` and the player's Steam id. */
  function SteamKey(steamId: Option<string>): (r: string)
    ensures StartsWith(r, "Steam_") && r[6..] == Interpolate(steamId)
    ensures steamId.None? ==> r == "Steam_undefined"
  {
    "Steam_" + Interpolate(steamId)
  }

  /** What the API client's `getPlayersLocation` produced: the location list, or the error
      it threw. */
  datatype LocationsReply = Locations(data: seq<LocationEntry>) | LocationsThrown(error: ApiError)

  /** `getPlayerLocation` end to end: a thrown error propagates, otherwise the list is
      searched. */
  function GetPlayerLocationCall(reply: LocationsReply, steamId: Option<string>): (r: Result<Option<Position>, AdapterError>)
    ensures reply.LocationsThrown? ==> r == Err(Transport(reply.error))
    ensures reply.Locations? ==>
      && r.Ok?
      && (r.value.None? <==> forall k :: 0 <= k < |reply.data| ==> reply.data[k].steamid != SteamKey(steamId))
  {
    match reply
    case LocationsThrown(e) => Err(Transport(e))
    case Locations(data) => Ok(GetPlayerLocation(data, steamId))
  }

  /** `getPlayerLocation`: the position of the first entry whose id is the player's Steam key,
      or `null` when there is none. */
  function GetPlayerLocation(locations: seq<LocationEntry>, steamId: Option<string>): (r: Option<Position>)
    ensures r.None? <==> forall k :: 0 <= k < |locations| ==> locations[k].steamid != SteamKey(steamId)
    ensures r.Some? ==> exists k :: (0 <= k < |locations| && locations[k].steamid == SteamKey(steamId)
      && locations[k].position == r.value
      && forall j :: 0 <= j < k ==> locations[j].steamid != SteamKey(steamId))
  {
    if |locations| == 0 then None
    else if locations[0].steamid == SteamKey(steamId) then Some(locations[0].position)
    else
      var r := GetPlayerLocation(locations[1..], steamId);
      assert forall k :: 1 <= k < |locations| ==> locations[k] == locations[1..][k - 1];
      if r.Some? then
        var k :| 0 <= k < |locations[1..]| && locations[1..][k].steamid == SteamKey(steamId)
          && locations[1..][k].position == r.value
          && forall j :: 0 <= j < k ==> locations[1..][j].steamid != SteamKey(steamId);
        assert locations[k + 1] == locations[1..][k];
        r
      else r
  }
}

=== FILE: stepper.dfy ===
/** The header of the multi-step form: which state each step is drawn in, which clicks
    move the form, and what the step counter shows. */
module Stepper {
  import opened Wrappers

  datatype StepState = Current | Complete | Other

  /** `getStepState`. */
  function GetStepState(index: int, currentStep: int): (r: StepState)
    ensures r == Current <==> index == currentStep
    ensures r == Complete <==> index < currentStep
    ensures r == Other <==> index > currentStep
  {
    if index == currentStep then Current
    else if currentStep > index then Complete
    else Other
  }

  /** The `canStepBack` prop; left `undefined` it defaults to `true`, so stepping back is
      allowed unless it is switched off explicitly. */
  function CanStepBack(prop: Option<bool>): (r: bool)
    ensures r <==> prop != Some(false)
  {
    if prop.Some? then prop.value else true
  }

  /** The `currentStepIsLoading` prop; left `undefined` it defaults to `false`, so the
      current step loads only when this is switched on explicitly. */
  function CurrentStepIsLoading(prop: Option<bool>): (r: bool)
    ensures r <==> prop == Some(true)
  {
    if prop.Some? then prop.value else false
  }

  /** `handleClick`: the step to move to, or None when the click changes nothing. */
  function HandleClick(index: int, currentStep: int, canStepBack: bool): (r: Option<int>)
    ensures r.Some? <==> GetStepState(index, currentStep) == Complete && canStepBack
    ensures r.Some? ==> r.value == index
  {
    if GetStepState(index, currentStep) == Complete && canStepBack then Some(index) else None
  }

  /** A click never moves the form forward, and lands on the clicked step. */
  lemma ClickNeverMovesForward(index: int, currentStep: int, canStepBack: bool)
    ensures var r := HandleClick(index, currentStep, canStepBack);
      r.Some? ==> r.value < currentStep && GetStepState(index, r.value) == Current
  {
  }

  /** With stepping back disabled no click does anything. */
  lemma NoStepBackFreezes(index: int, currentStep: int)
    ensures HandleClick(index, currentStep, false) == None
  {
  }

  /** Clicking the step that a click just moved to does nothing. */
  lemma SecondClickIsNoOp(index: int, currentStep: int, canStepBack: bool)
    requires HandleClick(index, currentStep, canStepBack).Some?
    ensures HandleClick(index, index, canStepBack) == None
  {
  }

  /** With the `canStepBack` prop as given, a click on a completed step moves the form
      back to it unless the prop is explicitly `false`. */
  lemma CompletedStepClick(prop: Option<bool>, index: int, currentStep: int)
    requires index < currentStep
    ensures HandleClick(index, currentStep, CanStepBack(prop)) == (if prop == Some(false) then None else Some(index))
  {
  }

  /** What the step counter shows; `Icon` carries the step's own icon element. */
  datatype Label = CheckMark | Spinner | Icon(element: string) | Number(n: int)

  /** The counter of step `index`: a check mark for a completed step; for the current step
      a spinner while loading; otherwise the step's icon when it has one, else `index + 1`. */
  function CounterLabel(index: int, currentStep: int, loading: bool, icon: Option<string>): (r: Label)
    ensures r == CheckMark <==> GetStepState(index, currentStep) == Complete
    ensures r == Spinner <==> GetStepState(index, currentStep) == Current && loading
    ensures r.Icon? <==> GetStepState(index, currentStep) != Complete && !(GetStepState(index, currentStep) == Current && loading) && icon.Some?
    ensures r.Icon? ==> icon == Some(r.element)
    ensures r.Number? ==> r.n == index + 1
  {
    if currentStep > index then CheckMark
    else if currentStep == index then
      (if loading then Spinner else if icon.Some? then Icon(icon.value) else Number(index + 1))
    else if icon.Some? then Icon(icon.value)
    else Number(index + 1)
  }

  /** Loading only changes the current step's counter. */
  lemma LoadingOnlyAffectsCurrent(index: int, currentStep: int, icon: Option<string>)
    requires index != currentStep
    ensures CounterLabel(index, currentStep, true, icon) == CounterLabel(index, currentStep, false, icon)
  {
  }

  /** With the `currentStepIsLoading` prop as given, a spinner is shown exactly on the
      current step and only when the prop is explicitly `true`. */
  lemma SpinnerOnlyWhenLoadingSet(prop: Option<bool>, index: int, currentStep: int, icon: Option<string>)
    ensures CounterLabel(index, currentStep, CurrentStepIsLoading(prop), icon) == Spinner
      <==> index == currentStep && prop == Some(true)
  {
  }
}

=== FILE: strings.dfy ===
/** String helpers that reproduce the JavaScript built-ins the core relies on:
    `String.prototype.split` on one character, `startsWith`, `replace` with a
    string pattern, integer `toString()` and `parseInt(s, 10)`, and template
    literal interpolation of a possibly-undefined value. */
module Text {
  import opened Wrappers

  // ---------------------------------------------------------------------------
  // Character classes
  // ---------------------------------------------------------------------------

  /** `\d` in a JavaScript regular expression and the radix-10 digits of `parseInt`. */
  predicate IsDigit(c: char) {
    '0' <= c <= '9'
  }

  /** The line terminators of ECMAScript: `.` in a regular expression never matches them. */
  predicate IsLineTerminator(c: char) {
    c == '\n' || c == '\r' || c == '\U{2028}' || c == '\U{2029}'
  }

  /** `\s` in a JavaScript regular expression (WhiteSpace and LineTerminator of ECMAScript),
      which is also what `parseInt` skips at the start of its argument. */
  predicate IsJsWhitespace(c: char) {
    || IsLineTerminator(c)
    || c == ' ' || c == '\t' || c == '\U{000B}' || c == '\U{000C}'
    || c == '\U{00A0}' || c == '\U{1680}' || ('\U{2000}' <= c <= '\U{200A}')
    || c == '\U{202F}' || c == '\U{205F}' || c == '\U{3000}' || c == '\U{FEFF}'
  }

  // ---------------------------------------------------------------------------
  // split / join on one separator character
  // ---------------------------------------------------------------------------

  /** `s.split(sep)` for a one-character separator: the pieces between separators,
      always at least one (`"".split(sep)` is `[""]`). */
  function Split(s: string, sep: char): (r: seq<string>)
    ensures |r| >= 1
    decreases |s|
  {
    if |s| == 0 then [""]
    else
      var rest := Split(s[1..], sep);
      if s[0] == sep then [""] + rest
      else [[s[0]] + rest[0]] + rest[1..]
  }

  /** `parts.join(sep)`. */
  function Join(parts: seq<string>, sep: char): string
  {
    if |parts| == 0 then ""
    else if |parts| == 1 then parts[0]
    else parts[0] + [sep] + Join(parts[1..], sep)
  }

  /** Joining the pieces of a split gives the original string back. */
  lemma {:induction false} JoinSplit(s: string, sep: char)
    ensures Join(Split(s, sep), sep) == s
    decreases |s|
  {
    if |s| > 0 {
      var rest := Split(s[1..], sep);
      JoinSplit(s[1..], sep);
      if s[0] == sep {
        assert Split(s, sep) == [""] + rest;
        assert Join([""] + rest, sep) == "" + [sep] + Join(rest, sep);
        assert s == [s[0]] + s[1..];
      } else {
        var parts := Split(s, sep);
        assert parts == [[s[0]] + rest[0]] + rest[1..];
        if |rest| == 1 {
          assert Join(parts, sep) == [s[0]] + rest[0];
        } else {
          assert Join(rest, sep) == rest[0] + [sep] + Join(rest[1..], sep);
          assert parts[1..] == rest[1..];
          assert Join(parts, sep) == [s[0]] + rest[0] + [sep] + Join(rest[1..], sep);
        }
        assert s == [s[0]] + s[1..];
      }
    }
  }

  /** No piece of a split contains the separator. */
  lemma {:induction false} SplitPiecesFree(s: string, sep: char)
    ensures forall k :: 0 <= k < |Split(s, sep)| ==> sep !in Split(s, sep)[k]
    decreases |s|
  {
    if |s| > 0 {
      SplitPiecesFree(s[1..], sep);
      var rest := Split(s[1..], sep);
      if s[0] != sep {
        assert sep !in rest[0];
        assert sep !in [s[0]] + rest[0];
      }
    }
  }

  /** A string without the separator splits into itself alone. */
  lemma {:induction false} SplitNoSep(s: string, sep: char)
    requires sep !in s
    ensures Split(s, sep) == [s]
    decreases |s|
  {
    if |s| > 0 {
      SplitNoSep(s[1..], sep);
      assert [s[0]] + s[1..] == s;
    }
  }

  /** A separator-free head followed by the separator splits off as the first piece. */
  lemma {:induction false} SplitCons(a: string, sep: char, b: string)
    requires sep !in a
    ensures Split(a + [sep] + b, sep) == [a] + Split(b, sep)
    decreases |a|
  {
    var s := a + [sep] + b;
    if |a| == 0 {
      assert s == [sep] + b;
      assert s[1..] == b;
    } else {
      assert s[1..] == a[1..] + [sep] + b;
      SplitCons(a[1..], sep, b);
      assert [a[0]] + a[1..] == a;
    }
  }

  // ---------------------------------------------------------------------------
  // startsWith / indexOf / replace
  // ---------------------------------------------------------------------------

  /** `s.startsWith(p)`. */
  predicate StartsWith(s: string, p: string) {
    |p| <= |s| && s[..|p|] == p
  }

  /** `pat` occurs in `s` at position `i`. */
  predicate OccursAt(s: string, pat: string, i: nat) {
    i + |pat| <= |s| && s[i..i + |pat|] == pat
  }

  /** The first position at or after `from` where `pat` occurs in `s`. */
  function IndexOfFrom(s: string, pat: string, from: nat): (r: Option<nat>)
    requires from <= |s|
    ensures r.Some? ==> from <= r.value && OccursAt(s, pat, r.value)
    ensures forall j :: from <= j <= |s| && (r.None? || j < r.value) ==> !OccursAt(s, pat, j)
    decreases |s| - from
  {
    if OccursAt(s, pat, from) then Some(from)
    else if from == |s| then None
    else IndexOfFrom(s, pat, from + 1)
  }

  /** `s.indexOf(pat)`, with `None` for -1. */
  function IndexOf(s: string, pat: string): (r: Option<nat>)
    ensures r.Some? ==> OccursAt(s, pat, r.value)
    ensures forall j :: 0 <= j <= |s| && (r.None? || j < r.value) ==> !OccursAt(s, pat, j)
  {
    IndexOfFrom(s, pat, 0)
  }

  /** `s.replace(pat, rep)` with a string pattern: only the first occurrence is replaced. */
  function ReplaceFirst(s: string, pat: string, rep: string): (r: string)
    ensures IndexOf(s, pat).None? ==> r == s
    ensures IndexOf(s, pat).Some? ==>
      var i := IndexOf(s, pat).value;
      && |r| == |s| - |pat| + |rep|
      && r[..i] == s[..i] && r[i..i + |rep|] == rep && r[i + |rep|..] == s[i + |pat|..]
  {
    match IndexOf(s, pat)
    case None => s
    case Some(i) => s[..i] + rep + s[i + |pat|..]
  }

  /** Without an occurrence of `pat`, replacing it leaves the string unchanged. */
  lemma ReplaceFirstAbsent(s: string, pat: string, rep: string)
    requires forall j :: 0 <= j <= |s| ==> !OccursAt(s, pat, j)
    ensures ReplaceFirst(s, pat, rep) == s
  {
  }

  /** Replacing the first occurrence, at `i`, keeps everything before it, puts `rep` in its
      place and keeps everything after it. */
  lemma ReplaceFirstAt(s: string, pat: string, rep: string, i: nat)
    requires OccursAt(s, pat, i)
    requires forall j :: 0 <= j < i ==> !OccursAt(s, pat, j)
    ensures ReplaceFirst(s, pat, rep) == s[..i] + rep + s[i + |pat|..]
  {
    var r := IndexOf(s, pat);
    assert r.Some? && r.value == i by {
      assert i <= |s|;
    }
  }

  /** Removing the first occurrence of a prefix gives back the rest. */
  lemma RemovePrefix(pat: string, m: string)
    ensures ReplaceFirst(pat + m, pat, "") == m
  {
    var s := pat + m;
    assert OccursAt(s, pat, 0);
    ReplaceFirstAt(s, pat, "", 0);
    assert s[|pat|..] == m;
  }

  // ---------------------------------------------------------------------------
  // Template interpolation
  // ---------------------------------------------------------------------------

  /** `${v}` in a template literal for a string that may be `undefined`. */
  function Interpolate(v: Option<string>): string
  {
    match v
    case Some(s) => s
    case None => "undefined"
  }

  // ---------------------------------------------------------------------------
  // Integers as decimal text
  // ---------------------------------------------------------------------------

  function DigitChar(d: nat): (c: char)
    requires d < 10
    ensures IsDigit(c)
  {
    "0123456789"[d]
  }

  function DigitValue(c: char): (d: nat)
    requires IsDigit(c)
    ensures d < 10
  {
    (c as int - '0' as int) as nat
  }

  /** Decimal digits of a natural number, most significant first, without leading zeros. */
  function NatToString(n: nat): (r: string)
    ensures |r| >= 1
    ensures forall i :: 0 <= i < |r| ==> IsDigit(r[i])
    ensures r[0] != '0' || n == 0
    decreases n
  {
    if n < 10 then [DigitChar(n)] else NatToString(n / 10) + [DigitChar(n % 10)]
  }

  /** The value of a run of decimal digits. */
  function DigitsValue(s: string): nat
    requires forall i :: 0 <= i < |s| ==> IsDigit(s[i])
  {
    if |s| == 0 then 0 else DigitsValue(s[..|s| - 1]) * 10 + DigitValue(s[|s| - 1])
  }

  /** `n.toString()` for an integer-valued JavaScript number. */
  function IntToString(n: int): (r: string)
    ensures |r| >= 1
    ensures n < 0 <==> r[0] == '-'
  {
    if n < 0 then "-" + NatToString(-n) else NatToString(n)
  }

  /** The longest prefix of `s` made of decimal digits. */
  function DigitPrefix(s: string): (r: string)
    ensures |r| <= |s| && r == s[..|r|]
    ensures forall i :: 0 <= i < |r| ==> IsDigit(r[i])
    ensures |r| < |s| ==> !IsDigit(s[|r|])
  {
    if |s| == 0 || !IsDigit(s[0]) then "" else [s[0]] + DigitPrefix(s[1..])
  }

  /** `s` with its leading JavaScript whitespace removed. */
  function TrimStart(s: string): (r: string)
    ensures |r| <= |s| && r == s[|s| - |r|..]
    ensures |r| > 0 ==> !IsJsWhitespace(r[0])
  {
    if |s| > 0 && IsJsWhitespace(s[0]) then TrimStart(s[1..]) else s
  }

  /** The value of the longest digit prefix of `u`; `None` when `u` does not start with a digit. */
  function Magnitude(u: string): (r: Option<nat>)
    ensures r.None? <==> |u| == 0 || !IsDigit(u[0])
  {
    var d := DigitPrefix(u);
    if |d| == 0 then None else Some(DigitsValue(d))
  }

  /** `parseInt` after the whitespace: an optional sign, then the magnitude. */
  function ParseSigned(t: string): (r: Option<int>)
    ensures var u := if |t| > 0 && (t[0] == '-' || t[0] == '+') then t[1..] else t;
      r.None? <==> |u| == 0 || !IsDigit(u[0])
    ensures r.Some? && |t| > 0 && t[0] == '-' ==> r.value <= 0
    ensures r.Some? && !(|t| > 0 && t[0] == '-') ==> r.value >= 0
  {
    if |t| > 0 && t[0] == '-' then
      match Magnitude(t[1..])
      case None => None
      case Some(m) => Some(0 - m)
    else if |t| > 0 && t[0] == '+' then
      match Magnitude(t[1..])
      case None => None
      case Some(m) => Some(m as int)
    else
      match Magnitude(t)
      case None => None
      case Some(m) => Some(m as int)
  }

  /** `parseInt(s, 10)`: skip leading whitespace, an optional sign, then the longest run
      of digits; `None` stands for `NaN` (no digit at all). */
  function ParseInt(s: string): Option<int>
  {
    ParseSigned(TrimStart(s))
  }

  lemma {:induction false} DigitsValueOfNatToString(n: nat)
    ensures DigitsValue(NatToString(n)) == n
    decreases n
  {
    var s := NatToString(n);
    if n >= 10 {
      DigitsValueOfNatToString(n / 10);
      assert s[..|s| - 1] == NatToString(n / 10);
      assert DigitValue(s[|s| - 1]) == n % 10;
    } else {
      assert DigitValue(s[0]) == n;
    }
  }

  lemma {:induction false} DigitPrefixOfDigits(s: string)
    requires forall i :: 0 <= i < |s| ==> IsDigit(s[i])
    ensures DigitPrefix(s) == s
    decreases |s|
  {
    if |s| > 0 {
      DigitPrefixOfDigits(s[1..]);
      assert [s[0]] + s[1..] == s;
    }
  }

  /** A run of digits is its own digit prefix, so its magnitude is its value. */
  lemma MagnitudeOfDigits(d: string)
    requires |d| > 0 && forall i :: 0 <= i < |d| ==> IsDigit(d[i])
    ensures Magnitude(d) == Some(DigitsValue(d))
  {
    DigitPrefixOfDigits(d);
  }

  /** After a `-`, `parseInt` negates the magnitude. */
  lemma ParseSignedNegative(t: string, v: nat)
    requires |t| > 0 && t[0] == '-' && Magnitude(t[1..]) == Some(v)
    ensures ParseSigned(t) == Some(0 - v)
  {
  }

  /** Without a sign, `parseInt` takes the magnitude as it is. */
  lemma ParseSignedUnsigned(t: string, v: nat)
    requires |t| > 0 && t[0] != '-' && t[0] != '+' && Magnitude(t) == Some(v)
    ensures ParseSigned(t) == Some(v as int)
  {
  }

  /** `parseInt` reads a run of digits as its value. */
  lemma ParseIntOfDigits(d: string)
    requires |d| > 0 && forall i :: 0 <= i < |d| ==> IsDigit(d[i])
    ensures ParseInt(d) == Some(DigitsValue(d) as int)
  {
    MagnitudeOfDigits(d);
    TrimStartKeeps(d);
    ParseSignedUnsigned(d, DigitsValue(d));
  }

  /** `parseInt` of text starting with `-` negates the magnitude after it. */
  lemma ParseIntOfMinus(t: string, v: nat)
    requires |t| > 0 && t[0] == '-' && Magnitude(t[1..]) == Some(v)
    ensures ParseInt(t) == Some(0 - v)
  {
    TrimStartKeeps(t);
    ParseSignedNegative(t, v);
  }

  /** Text that starts with something other than whitespace is not trimmed. */
  lemma TrimStartKeeps(s: string)
    requires |s| > 0 && (s[0] == '-' || IsDigit(s[0]))
    ensures TrimStart(s) == s
  {
    var c := s[0];
    assert !IsJsWhitespace(c) by {
      assert 0x2D <= c as int <= 0x39;
      assert !IsLineTerminator(c);
    }
  }

  /** `parseInt` reads a natural number's digits back as that number. */
  lemma ParseIntOfNat(n: nat)
    ensures ParseInt(NatToString(n)) == Some(n)
  {
    ParseIntOfDigits(NatToString(n));
    DigitsValueOfNatToString(n);
  }

  /** `parseInt` reads `-` and a natural number's digits back as its negation. */
  lemma ParseIntOfNegatedNat(n: nat)
    ensures ParseInt("-" + NatToString(n)) == Some(0 - n)
  {
    var d := NatToString(n);
    MagnitudeOfDigits(d);
    DigitsValueOfNatToString(n);
    var t := "-" + d;
    assert t[0] == '-' && t[1..] == d;
    ParseIntOfMinus(t, n);
  }

  /** `parseInt(n.toString(), 10) === n` for every integer (the decimal form). */
  lemma ParseIntOfIntToString(n: int)
    ensures ParseInt(IntToString(n)) == Some(n)
  {
    if n < 0 {
      assert IntToString(n) == "-" + NatToString(-n);
      ParseIntOfNegatedNat(-n);
    } else {
      assert IntToString(n) == NatToString(n);
      ParseIntOfNat(n);
    }
  }

  /** Two integers with the same decimal text are equal. */
  lemma IntToStringInjective(a: int, b: int)
    requires IntToString(a) == IntToString(b)
    ensures a == b
  {
    ParseIntOfIntToString(a);
    ParseIntOfIntToString(b);
  }

  /** The decimal text of an integer has no space and no double quote. */
  lemma IntToStringPlain(n: int)
    ensures ' ' !in IntToString(n) && '"' !in IntToString(n)
  {
    var s := IntToString(n);
    var digits := NatToString(if n < 0 then -n else n);
    assert forall i :: 0 <= i < |digits| ==> digits[i] != ' ' && digits[i] != '"';
    if n < 0 {
      assert s == "-" + digits;
      assert forall i :: 1 <= i < |s| ==> s[i] == digits[i - 1];
    }
  }

  /** `Math.floor(ms / 1000)`: a millisecond instant in whole seconds. For a positive
      divisor Dafny's `/` rounds down, as `Math.floor` does. */
  function WholeSeconds(ms: int): (r: int)
    ensures r * 1000 <= ms < (r + 1) * 1000
  {
    ms / 1000
  }
}

=== FILE: wrappers.dfy ===
/** Optional values and success-or-error results, used for the source's
    `null`/`undefined` values and for the errors its operations throw. */
module Wrappers {

  /** A value that may be absent (`null` or `undefined` in the source). */
  datatype Option<+T> = None | Some(value: T)

  /** The outcome of an operation that either returns a value or throws. */
  datatype Result<+T, +E> = Ok(value: T) | Err(error: E)
}
